=== FILE: README.md ===
# SmartStock order pipeline in Dafny

SmartStock is a small order-and-inventory system. A web backend accepts
customer orders and publishes one message per cart line on an order topic.
The order processor re-checks stock for each message, logs the order,
decrements the stock and publishes a restock check. The restock handler
compares the stock with the product's reorder level; below that level it
records an alert and e-mails it. Around this pipeline sit the warehouse
queries (inventory, categories, orders, top spenders), the customer
document store, and three routes that shape responses: the customer routes,
the map routes and the order submission route.

This project models that core as pure functions over abstract stores:

- `Records`: the rows, messages, documents, e-mails and HTTP answers.
  Prices are whole cents, quantities whole units, clock readings whole
  milliseconds, map coordinates reals.
- `Warehouse`: the inventory baseline and order history tables as
  sequences of rows, with each query and statement of the warehouse service
  as a function. ORDER BY is a stable insertion sort (`Seqs.SortBy`), and
  strings compare by code point (`Base.LexLe`).
- `CustomerStore`: the customers collection as a sequence of documents in
  ascending document-id order, which is the order a query returns them in.
  It also holds the restock log writer of the application service.
- `Effects`: the system state (two tables, the customers, the restock
  alerts, two topics and the mail outbox). Also the effects a handler can
  perform and `ApplyAll`, which replays an effect list on the state.
- `OrderProcessor`, `RestockHandler`: the two background functions. Each
  returns the effects it performed, in order, and whether it threw.
- `OrderIntake`, `CustomerRoutes`, `MapRoutes`: the HTTP routes. Each
  returns its answer, and the intake route also returns its publications.
- `Pipeline`: the processor and the restock handler as state-machine steps,
  with the invariants a sequence of deliveries keeps.

Failures of the cloud services are modelled by `Base.Faults`. The value
`FailCall(k)` makes the k-th outbound call of one handler run throw, so a
run can stop part-way with its earlier effects already done. Fresh values
are parameters: uuids, `Date.now()`, `new Date()` and `CURRENT_DATE()`. So
are the process environment (HQ coordinates, the maps API key) and the
geocoding service's reply.

## Model

| member | source | states |
|---|---|---|
| Warehouse.GetProductById | appengine/services/bigquery.js:75-87 | Nothing is returned exactly when no row carries the id; otherwise the first row carrying it, which with unique ids is the one row carrying it |
| Warehouse.GetReorderDetails | functions/restockHandler/bigquery.js:8-24 | Nothing for an unknown product; otherwise the name, stock, reorder level and reorder quantity of a row carrying the id |
| Warehouse.UpdateInventory | appengine/services/bigquery.js:97-111 | Every row of the product loses q units of stock, gains q units of sales (a null volume counts as 0) and gets today's order date; every other row is unchanged; no listing column changes; stock plus sales volume of every row is conserved; unique product ids stay unique |
| Warehouse.UpdateKeepsFirstRow | appengine/services/bigquery.js:75-105 | After updating a product, the row getProductById returns for it is the row it returned before, decremented, whether or not the id is unique |
| Warehouse.LogOrder | appengine/services/bigquery.js:118-134 | Exactly one row is appended, earlier rows are kept; it has an "ORD-" id, the insert time, status Pending and the payload's customer, product, name, quantity, unit price and total |
| Warehouse.LogOrderIgnoresPayloadIdAndTime | appengine/services/bigquery.js:119-128 | The payload's own order_id and timestamp do not affect the stored row |
| Warehouse.SelectByName | appengine/services/bigquery.js:24-30 | A filtered projection sorted by name: a permutation of the projections of the kept rows, with every kept row present and nothing else |
| Warehouse.GetInventory | appengine/services/bigquery.js:24-33 | The active products, as id and name, sorted by name, one entry per active row (a permutation of the kept rows' id and name) |
| Warehouse.GetProductsByCategory | appengine/services/bigquery.js:56-68 | The active products whose category equals c, sorted by name, one entry per kept row (a permutation of the kept rows' id and name) |
| Warehouse.InsertDistinct | appengine/services/bigquery.js:42-45 | Adding a category to a strictly ascending list keeps it strictly ascending and adds nothing but that category |
| Warehouse.GetProductCategories | appengine/services/bigquery.js:40-49 | Strictly ascending, so free of duplicates; c is listed iff some active row has category c (null categories never appear) |
| Warehouse.GetOrdersByCustomer | appengine/services/bigquery.js:141-153 | Newest first, and each order of the customer appears as often as in the table while no other order appears |
| Warehouse.LoggedOrderIsListed | appengine/services/bigquery.js:118-153 | A freshly logged order is among its customer's orders |
| Warehouse.SpendAfterLog | appengine/services/bigquery.js:235-242 | Logging an order raises its customer's summed spend by the order total and leaves everyone else's unchanged |
| Warehouse.SpendAppend | appengine/services/bigquery.js:237 | Appending an order row adds its total to its own customer's sum only |
| Warehouse.CustomerIds | appengine/services/bigquery.js:239 | GROUP BY customer_id: each customer with an order exactly once, and no one else |
| Warehouse.SpendRows | appengine/services/bigquery.js:237-239 | One row per ordering customer carrying that customer's summed order totals |
| Warehouse.GetTopCustomersBySpend | appengine/services/bigquery.js:235-248 | min(limit, number of customers) rows with distinct customers and their true sums, biggest first; nobody left out spent more than anybody listed |
| CustomerStore.GetCustomers | appengine/services/firestore.js:13-31 | Only active customers' eight fields: every active document appears and every entry comes from one; no other stored field is carried (order: GetCustomersAppend) |
| CustomerStore.GetCustomersAppend | appengine/services/firestore.js:13-31 | The result follows document order: the customers of two document lists in a row are those of the first list followed by those of the second |
| CustomerStore.GetCustomersSingle | appengine/services/firestore.js:14-29 | One document contributes its eight fields when active and nothing otherwise |
| CustomerStore.FindFirstActiveDoc | appengine/routes/customers.js:79-81 | Looking an id up in getCustomers finds the customer of the first active document, in document order, carrying that id, and nothing iff there is none |
| CustomerStore.CountActiveCustomers | appengine/services/firestore.js:67-73 | The count is the length of getCustomers on the same store |
| CustomerStore.FindCustomer | appengine/routes/order.js:51 | The first customer with the id, or nothing exactly when no customer has it |
| CustomerStore.SetDoc | appengine/services/firestore.js:88 | Writing a document keyed by its id replaces any document with that id, keeps every other document, and keeps ids unique and ascending |
| CustomerStore.AddCustomer | appengine/services/firestore.js:74-90 | The stored and returned record is active, has the id "cust_" followed by the clock reading in decimal, the registration time and the five given fields; only the document with the new id changes; the new customer is listed by getCustomers |
| CustomerStore.NewCustomerIdsDiffer | appengine/services/firestore.js:75 | Two different clock readings give two different customer ids |
| CustomerStore.RestockLogEntry | appengine/services/firestore.js:45-65 | The written document has exactly the six named fields plus the timestamp; a field missing from the input is undefined and any other input field is dropped |
| CustomerStore.LogRestockAlert | appengine/services/firestore.js:45-66 | The log grows by exactly one entry, earlier entries are kept, and the entry holds the six named fields and a timestamp |
| Effects.Publishes | appengine/routes/order.js:79-80 | One order-topic publication per message, in message order |
| Effects.PublishesAppend | appengine/routes/order.js:79-80 | Publishing messages appends them to the order topic and changes nothing else |
| OrderProcessor.SuccessTrace | functions/orderProcessor/index.js:26-34 | A successful run performs exactly three effects, in this order: log the order, decrement the product's stock, publish a restock check carrying only the product id |
| OrderProcessor.ProcessOrder | functions/orderProcessor/index.js:9-41 | Unknown product or stock below the quantity: nothing is done and it throws; stock equal to the quantity is accepted; it completes iff no call fails and the checks pass; the effects are always a leading part of the success trace; every throw carries "Order processing failed"; a failing call stops the run there: a failed lookup or log does nothing, a failed update leaves only the log, a failed publish leaves log and update |
| OrderProcessor.UpdateFailureLeavesOrderLogged | functions/orderProcessor/index.js:26-27 | A failed stock update after a successful log leaves the order logged and the run throws |
| RestockHandler.AlertPayload | functions/restockHandler/index.js:39-46 | The alert has exactly the fields product_id, product_name, stock_quantity, reorder_level, reorder_quantity and status |
| RestockHandler.AlertRecord | functions/restockHandler/firestore.js:10-17 | The stored alert keeps every given field and adds the alert date |
| RestockHandler.AlertTrace | functions/restockHandler/index.js:39-50 | The below-level effects are the alert, carrying the details and status "unread", then an e-mail with name, stock and reorder quantity |
| RestockHandler.HandleRestock | functions/restockHandler/index.js:11-55 | It never throws; with no details or stock at or above the level, nothing happens; below the level the effects are a leading part of alert-then-e-mail, and all of it when none of the three calls fails; a failed lookup or alert write does nothing, and a failed e-mail leaves only the alert |
| RestockHandler.EmailFollowsAlert | functions/restockHandler/index.js:39-50 | An e-mail is only sent as the second effect, right after an alert for the same product name |
| RestockHandler.AlertExactlyWhenBelowLevel | functions/restockHandler/index.js:33-46 | When none of its three calls fails, exactly one alert is recorded iff the product exists and its stock is below its reorder level, and none otherwise |
| RestockHandler.HandlerAlertLosesStockLevel | appengine/services/firestore.js:45-65 | The handler's alert names the stock field stock_quantity, so the application's restock log writer would find no current_quantity in it |
| OrderIntake.Cart | appengine/routes/order.js:56 | Without a cart array the lines are exactly one line built from the top-level product id and quantity; a request that passes validation has at least one line |
| OrderIntake.ExpectedMessagesMembers | appengine/routes/order.js:59-81 | Every line that is not skipped and whose product exists yields its message, and every message comes from such a line; each carries the one order id, the customer, quantity > 0, the stored name and unit price, and total = unit price × quantity |
| OrderIntake.PrefixOfCart | appengine/routes/order.js:59-81 | Handling a leading part of the cart publishes a leading part of the messages and makes no more calls than the whole cart |
| OrderIntake.ExpectedMessages | appengine/routes/order.js:59-81 | No more messages than cart lines |
| OrderIntake.ExpectedMessagesPerLine | appengine/routes/order.js:59-81 | Exactly one message per accepted line, in cart order: the k-th message is the payload of the k-th line that is not skipped and whose product exists |
| OrderIntake.ExpectedStep | appengine/routes/order.js:59-81 | One more cart line adds its own message (when accepted) after the others, and its own calls |
| OrderIntake.SubmitOrder | appengine/routes/order.js:41-91 | 400 iff no customer id or an empty cart, 404 iff the customer is not active, neither publishes; 500 only on a failed call; 200 iff every call made succeeds, with exactly the expected messages published in cart order, even when none are; the publications are always a leading part of them; a failed customer query publishes nothing, and any other 500 has published exactly the messages of the lines before the one whose call failed |
| OrderIntake.PublishCart | appengine/routes/order.js:58-81 | The loop publishes a leading part of the expected messages, fails iff a call it makes fails, and publishes all of them otherwise; on failure it has published exactly the messages of the lines before the line whose call failed |
| OrderIntake.SingleItemFormat | appengine/routes/order.js:56-76 | A single-item request yields exactly its one message when the line is valid and the product exists, and none otherwise |
| CustomerRoutes.PostCustomer | appengine/routes/customers.js:95-109 | 400 iff a required field is falsy, and nothing is stored; 500 iff the write fails, and nothing is stored; otherwise 201 with the stored active record, which getCustomers lists |
| CustomerRoutes.PostIgnoresExtraFields | appengine/routes/customers.js:96-103 | Body fields other than the five named ones change neither the store nor the answer |
| CustomerRoutes.SpenderName | appengine/routes/customers.js:79-81 | The name of the first customer with the id when that name is a non-empty string; the id itself when that name is missing or empty, or when nobody has the id |
| CustomerRoutes.TopSpenders | appengine/routes/customers.js:73-91 | 500 iff a service call fails; otherwise one entry per top-spender row, same order and totals, at most 5, totals non-increasing, each named by SpenderName |
| MapRoutes.CustomerMarkers | appengine/routes/map.js:12-20 | A customer gets a marker iff its location has both coordinates non-zero; each marker copies id, name and coordinates; no marker has a zero coordinate (order and count: CustomerMarkersAppend) |
| MapRoutes.CustomerMarkersAppend | appengine/routes/map.js:12-20 | The markers keep the customer order: those of two customer lists in a row are the first list's markers followed by the second's, so duplicated customers give duplicated markers |
| MapRoutes.CustomerMarkersSingle | appengine/routes/map.js:13-20 | One customer gives exactly one marker when both coordinates are non-zero and none otherwise |
| MapRoutes.Locations | appengine/routes/map.js:8-40 | 500 iff the customer query fails; otherwise the customer markers, followed by a single HQ marker iff both HQ coordinates parse; no HQ marker anywhere but last |
| MapRoutes.ApiKeyRoute | appengine/routes/map.js:43-49 | 500 iff the key is unset or empty; otherwise 200 with the key |
| MapRoutes.Geocode | appengine/routes/map.js:51-81 | A missing address gives 400 with no request sent; status OK with a result gives the first result's coordinates; another status gives 500 naming it; a failed request or an OK with no results gives 500 "Geocoding request failed" |
| Pipeline.ProcessorTracePrefixes | functions/orderProcessor/index.js:26-34 | After n processor effects: the order is logged once n ≥ 1, the stock decremented once n ≥ 2, the restock check published once n = 3; nothing else changes |
| Pipeline.ProcessedOrderState | functions/orderProcessor/index.js:26-34 | A successful step appends one order row, applies the stock update, appends one restock check for the product and changes nothing else |
| Pipeline.RefusedOrderChangesNothing | functions/orderProcessor/index.js:15-23 | An unknown product or short stock leaves every store unchanged |
| Pipeline.ProcessPreservesStockInvariant | functions/orderProcessor/index.js:21-27 | Whatever call fails, a step on an inventory with unique ids and no negative stock keeps both |
| Pipeline.RestockStepEffects | functions/restockHandler/index.js:17-50 | A restock step changes only alerts and outbox, each by at most one, and e-mails only with an alert; when none of its calls fails it alerts and e-mails iff stock is below the reorder level |
| Pipeline.OrderThenRestock | functions/orderProcessor/index.js:32-34 | After a successful step, on any inventory, the restock check it published raises an alert iff the stock left in the checked row is below the reorder level |
| Pipeline.DuplicateRowGoesNegative | functions/orderProcessor/index.js:15-27 | A completed step lowers every row carrying the product id by the ordered quantity, so a row other than the checked one with less stock goes negative |
| Pipeline.DuplicateRowExample | appengine/services/bigquery.js:75-105 | On a table with the id twice (stock 5, then 0), an order of 3 completes and leaves the second row at -3, breaking the stock invariant |
| Pipeline.ProcessAllPreservesStockInvariant | functions/orderProcessor/index.js:9-41 | Any sequence of deliveries, with any failures, keeps product ids unique and stock non-negative |
| Pipeline.ProcessAllAppendsOrders | appengine/services/bigquery.js:118-134 | The order history is append-only: it only grows, by at most one row per delivery |

## Left out

- Pipeline.ProcessPreservesStockInvariant: the unique-id half of the invariant is assumed of the initial table; nothing in the system enforces one row per product id, and on a table without it the processor can drive a row negative (Pipeline.DuplicateRowExample).
- Cloud clients (warehouse, document store, topics, mailer, `fetch`) are abstract sequences and effect lists. SQL text, network calls and delivery semantics are not modelled.
- Concurrency: the processor's stock read and its decrement are separate statements, so concurrent deliveries could oversell. The model handles one delivery at a time, so the stock invariant holds per sequential step only.
- Pub/Sub redelivery, retries and exactly-once delivery are not modelled. A thrown processor run is simply a step with its partial effects.
- Message and request encoding (base64, JSON, Express objects) is not modelled; requests and messages are records. A malformed message, which makes the processor throw and the restock handler log and return, is left out.
- The GET /order/form-data route, the customers.js GET routes other than top-spenders, and the warehouse admin utilities are left out. Their float aggregates (averages and totals with `toFixed`) are left out too. `CountActiveCustomers` and `GetOrdersByCustomer` model the service calls the two remaining GET routes wrap.
- E-mail formatting (sendgrid.js, testSendEmail.js), the batch import script, server wiring, constants and the manual test harness hold no logic and are not modelled.
- Product ids are assumed to be strings and quantities integers. A JavaScript quantity given as a numeric string, a fractional quantity or NaN is not modelled.
- OrderIntake.SubmitOrder: all messages of one submission carry one clock reading `now`, while the source reads the clock once per line.
- CustomerRoutes.TopSpenders: the `toFixed(2)` rounding of totals is not modelled, because totals are whole cents.
- MapRoutes.Locations: parseFloat and NaN are not modelled. Each HQ coordinate is an optional real that is absent exactly when it does not parse.
- MapRoutes.Geocode: the API key and URL encoding of the request are not modelled. The request is recorded as the address it asks for.
- Warehouse.GetProductById and Warehouse.GetReorderDetails: `LIMIT 1` without ORDER BY is modelled as the first row in table order. With unique product ids, which the pipeline invariant keeps, any choice gives the same row.
- Warehouse.GetTopCustomersBySpend: ties in spend are ordered by first order. SQL leaves the order of equal spends unspecified, and the contract does not constrain it.
- CustomerStore.RestockLogEntry: an undefined field is stored as `Undefined`. The document store rejects undefined values by default; that rejection is not modelled.
- Restock alert document ids, customer document ids generated by the store, and the order of fields within documents are not modelled.
- Faults cover an outbound call throwing; a handler's own code is assumed not to throw.

=== FILE: base.dfy ===
/** Values shared by every part of the model: optional values, the JavaScript
    truthiness tests the handlers branch on, the string order that BigQuery and
    Firestore sort by, decimal rendering of clock readings, and the fault model
    for outbound service calls. */
module Base {

  /** An optional value: `None` stands for JavaScript's `undefined` / `null`. */
  datatype Option<+T> = None | Some(value: T)

  /** A string field is truthy when it is present and not empty. */
  predicate TruthyStr(v: Option<string>) {
    v.Some? && v.value != ""
  }

  /** A numeric field is truthy when it is present and not zero. */
  predicate TruthyInt(v: Option<int>) {
    v.Some? && v.value != 0
  }

  /** A coordinate is truthy when it is present and not zero. */
  predicate TruthyReal(v: Option<real>) {
    v.Some? && v.value != 0.0
  }

  function Min(a: int, b: int): int {
    if a <= b then a else b
  }

  /** The answer every route gives when a call it makes throws. */
  const InternalError := "Internal Server Error"

  /** Which outbound call (database read or write, publish, e-mail) of one
      handler invocation throws. Calls are numbered from 0 in the order the
      handler makes them; `NoFault` means every call succeeds. */
  datatype Faults = NoFault | FailCall(index: nat) {
    predicate Fails(k: nat) {
      FailCall? && index == k
    }

    /** None of the calls numbered 0 to `last` fails. */
    predicate SucceedsThrough(last: nat) {
      NoFault? || index > last
    }
  }

  // ---------------------------------------------------------------------
  // String order (code point by code point, a proper prefix first)
  // ---------------------------------------------------------------------

  predicate LexLe(a: string, b: string)
    decreases |a|
  {
    |a| == 0 || (|b| != 0 && (a[0] < b[0] || (a[0] == b[0] && LexLe(a[1..], b[1..]))))
  }

  /** Strictly before in string order. */
  predicate LexLt(a: string, b: string) {
    a != b && LexLe(a, b)
  }

  lemma {:induction false} LexLeReflexive(a: string)
    ensures LexLe(a, a)
    decreases |a|
  {
    if |a| != 0 {
      LexLeReflexive(a[1..]);
    }
  }

  lemma {:induction false} LexLeTotal(a: string, b: string)
    ensures LexLe(a, b) || LexLe(b, a)
    decreases |a|
  {
    if |a| != 0 && |b| != 0 && a[0] == b[0] {
      LexLeTotal(a[1..], b[1..]);
    }
  }

  lemma {:induction false} LexLeTransitive(a: string, b: string, c: string)
    requires LexLe(a, b) && LexLe(b, c)
    ensures LexLe(a, c)
    decreases |a|
  {
    if |a| != 0 && a[0] == b[0] && b[0] == c[0] {
      LexLeTransitive(a[1..], b[1..], c[1..]);
    }
  }

  lemma {:induction false} LexLeAntisymmetric(a: string, b: string)
    requires LexLe(a, b) && LexLe(b, a)
    ensures a == b
    decreases |a|
  {
    if |a| != 0 {
      LexLeAntisymmetric(a[1..], b[1..]);
      assert a == [a[0]] + a[1..];
      assert b == [b[0]] + b[1..];
    }
  }

  /** Two different strings are ordered strictly one way or the other. */
  lemma LexLtConnected(a: string, b: string)
    requires a != b
    ensures LexLt(a, b) != LexLt(b, a)
  {
    LexLeTotal(a, b);
    if LexLe(a, b) && LexLe(b, a) {
      LexLeAntisymmetric(a, b);
    }
  }

  lemma LexLtTransitive(a: string, b: string, c: string)
    requires LexLt(a, b) && LexLt(b, c)
    ensures LexLt(a, c)
  {
    LexLeTransitive(a, b, c);
    if a == c {
      LexLeAntisymmetric(a, b);
    }
  }

  // ---------------------------------------------------------------------
  // Decimal rendering of a clock reading (as JavaScript prints an integer)
  // ---------------------------------------------------------------------

  predicate IsDigit(c: char) {
    '0' <= c <= '9'
  }

  function DigitChar(d: nat): (c: char)
    requires d < 10
    ensures IsDigit(c) && c as int - '0' as int == d
  {
    (d + '0' as int) as char
  }

  function DigitOf(c: char): (d: nat)
    requires IsDigit(c)
    ensures d < 10
  {
    c as int - '0' as int
  }

  /** Decimal digits of `n`, without leading zeros. */
  function Decimal(n: nat): (r: string)
    ensures |r| >= 1
    ensures forall i :: 0 <= i < |r| ==> IsDigit(r[i])
  {
    if n < 10 then [DigitChar(n)] else Decimal(n / 10) + [DigitChar(n % 10)]
  }

  /** The number a string of decimal digits denotes. */
  function DecimalValue(s: string): nat
    requires forall i :: 0 <= i < |s| ==> IsDigit(s[i])
  {
    if |s| == 0 then 0
    else
      assert IsDigit(s[|s| - 1]);
      DecimalValue(s[..|s| - 1]) * 10 + DigitOf(s[|s| - 1])
  }

  /** Reading the digits back gives the number: distinct readings render as
      distinct strings. */
  lemma {:induction false} DecimalRoundTrip(n: nat)
    ensures DecimalValue(Decimal(n)) == n
  {
    if n >= 10 {
      var r := Decimal(n);
      assert r[..|r| - 1] == Decimal(n / 10);
      DecimalRoundTrip(n / 10);
    }
  }

  lemma DecimalInjective(m: nat, n: nat)
    requires Decimal(m) == Decimal(n)
    ensures m == n
  {
    DecimalRoundTrip(m);
    DecimalRoundTrip(n);
  }

  /** `p` is a prefix of `s`. */
  predicate StartsWith(s: string, p: string) {
    |p| <= |s| && s[..|p|] == p
  }
}

=== FILE: customer_routes.dfy ===
/** The customer routes (appengine/routes/customers.js): creating a customer
    (POST /customers) and the top-spenders list joined with customer names
    (GET /customers/top-spenders). */
module CustomerRoutes {
  import opened Base
  import opened Seqs
  import opened Records
  import opened Warehouse
  import opened CustomerStore

  const MissingRequired := "Missing required fields"

  /** The POST body: the five fields the route reads and anything else the
      client sent. */
  datatype CustomerRequest = CustomerRequest(
    name: Option<string>,
    email: Option<string>,
    phone: Option<string>,
    address: Option<string>,
    location: Option<Location>,
    extra: map<string, Value>)

  /** Some required field is falsy; a location object is always truthy. */
  predicate MissingCustomerFields(req: CustomerRequest) {
    || !TruthyStr(req.name) || !TruthyStr(req.email) || !TruthyStr(req.phone)
    || !TruthyStr(req.address) || req.location.None?
  }

  /** The five fields handed to `addCustomer`. */
  function AddCustomerArgs(req: CustomerRequest): NewCustomer {
    NewCustomer(req.name, req.email, req.phone, req.address, req.location)
  }

  /** The only outbound call of the route: the document write. */
  const WriteCall := 0

  /** `POST /customers` against the customer documents `docs`; `stamp` and
      `now` are the clock readings `addCustomer` takes. Returns the documents
      after the request and the answer. */
  function PostCustomer(docs: seq<CustomerDoc>, req: CustomerRequest, stamp: nat, now: int, f: Faults): (r: (seq<CustomerDoc>, Response))
    requires IdsAscending(docs)
    ensures r.1.code in {201, 400, 500}
    ensures r.1.code == 400 <==> MissingCustomerFields(req)
    ensures r.1.code == 400 ==> r.1.body == Failure(MissingRequired)
    ensures r.1.code == 500 <==> !MissingCustomerFields(req) && f.Fails(WriteCall)
    ensures r.1.code == 500 ==> r.1.body == Failure(InternalError)
    ensures r.1.code != 201 ==> r.0 == docs
    ensures r.1.code == 201 ==>
              && r.1.body.Created?
              && var c := r.1.body.customer;
              && c.name == req.name && c.email == req.email && c.phone == req.phone
              && c.address == req.address && c.location == req.location
              && c.status == Some(ActiveStatus) && c.registered_date == Some(now)
              && c.customer_id.Some? && StartsWith(c.customer_id.value, CustomerIdPrefix)
              && c.customer_id == Some(NewCustomerId(stamp))
              && c in GetCustomers(r.0)
              && IdsAscending(r.0)
              && (forall e :: e in docs && e.id != c.customer_id.value ==> e in r.0)
              && (forall e :: e in r.0 ==> e.id == c.customer_id.value || e in docs)
  {
    if MissingCustomerFields(req) then (docs, Response(400, Failure(MissingRequired)))
    else if f.Fails(WriteCall) then (docs, Response(500, Failure(InternalError)))
    else
      var (docs', c) := AddCustomer(docs, AddCustomerArgs(req), stamp, now);
      (docs', Response(201, Created(c)))
  }

  /** Fields beyond the five named ones never reach the store or the answer. */
  lemma PostIgnoresExtraFields(docs: seq<CustomerDoc>, req: CustomerRequest, extra: map<string, Value>, stamp: nat, now: int, f: Faults)
    requires IdsAscending(docs)
    ensures PostCustomer(docs, req.(extra := extra), stamp, now, f) == PostCustomer(docs, req, stamp, now, f)
  {
  }

  /** `match?.name || row.customer_id`: the name of the first active customer
      with that id when it is a non-empty string, else the id itself. */
  function SpenderName(customers: seq<Customer>, cid: string): (r: string)
    ensures (forall i :: 0 <= i < |customers| ==> customers[i].customer_id != Some(cid)) ==> r == cid
    ensures forall i :: && 0 <= i < |customers| && customers[i].customer_id == Some(cid)
                        && (forall j :: 0 <= j < i ==> customers[j].customer_id != Some(cid))
                        ==> r == (if TruthyStr(customers[i].name) then customers[i].name.value else cid)
    ensures r == cid || exists i :: && 0 <= i < |customers|
                                    && customers[i].customer_id == Some(cid)
                                    && customers[i].name == Some(r) && r != ""
                                    && forall j :: 0 <= j < i ==> customers[j].customer_id != Some(cid)
  {
    match FindCustomer(customers, cid)
    case Some(c) => if TruthyStr(c.name) then c.name.value else cid
    case None => cid
  }

  /** The outbound calls of the route, numbered per request: the spend
      ranking query, then the customer query for the names. */
  const TopCall := 0
  const NamesCall := 1

  /** `GET /customers/top-spenders`: the default-limit spend ranking, each
      row named after its customer. */
  function TopSpenders(orders: seq<OrderRow>, docs: seq<CustomerDoc>, f: Faults): (r: Response)
    ensures r.code in {200, 500}
    ensures r.code == 500 <==> f.Fails(TopCall) || f.Fails(NamesCall)
    ensures r.code == 500 ==> r.body == Failure(InternalError)
    ensures r.code == 200 ==>
              && r.body.Spenders?
              && var top := GetTopCustomersBySpend(orders, DefaultTopLimit);
              && |r.body.spenders| == |top| <= DefaultTopLimit
              && forall i :: 0 <= i < |top| ==>
                   && r.body.spenders[i].total_spent == top[i].total_spent
                   && r.body.spenders[i].total_spent == Spend(orders, top[i].customer_id)
                   && r.body.spenders[i].name == SpenderName(GetCustomers(docs), top[i].customer_id)
    ensures r.code == 200 ==>
              forall i, j :: 0 <= i < j < |r.body.spenders| ==>
                r.body.spenders[i].total_spent >= r.body.spenders[j].total_spent
  {
    if f.Fails(TopCall) || f.Fails(NamesCall) then Response(500, Failure(InternalError))
    else
      var top := GetTopCustomersBySpend(orders, DefaultTopLimit);
      var customers := GetCustomers(docs);
      Response(200, Spenders(Map(top, (row: SpendRow) => Spender(SpenderName(customers, row.customer_id), row.total_spent))))
  }
}

=== FILE: customer_store.dfy ===
/** The document store (appengine/services/firestore.js): the customers
    collection, kept as its documents in ascending document-id order (the
    order a Firestore query returns them in), and the restock log writer. */
module CustomerStore {
  import opened Base
  import opened Seqs
  import opened Records

  const CustomerIdPrefix := "cust_"

  predicate IsActiveCustomer(c: Customer) {
    c.status == Some(ActiveStatus)
  }

  predicate IsActiveDoc(d: CustomerDoc) {
    IsActiveCustomer(d.data)
  }

  /** At most one document per id, in ascending id order. */
  predicate IdsAscending(docs: seq<CustomerDoc>) {
    forall i, j :: 0 <= i < j < |docs| ==> LexLt(docs[i].id, docs[j].id)
  }

  /** The eight fields `getCustomers` copies out of a document. */
  function Fields(d: CustomerDoc): Customer {
    d.data
  }

  /** `getCustomers`: the active customers, in query order, without any
      other stored fields. */
  function GetCustomers(docs: seq<CustomerDoc>): (r: seq<Customer>)
    ensures |r| <= |docs|
    ensures forall c :: c in r ==> IsActiveCustomer(c)
    ensures forall i :: 0 <= i < |docs| && IsActiveDoc(docs[i]) ==> docs[i].data in r
    ensures forall c :: c in r ==> exists i :: 0 <= i < |docs| && IsActiveDoc(docs[i]) && docs[i].data == c
  {
    SelectionMembers(docs, IsActiveDoc, Fields);
    Map(Filter(docs, IsActiveDoc), Fields)
  }

  /** The query result follows the document order: the customers of a
      concatenation of document lists are those of the first list followed by
      those of the second, and a single document contributes itself when
      active. Together these fix the result, order included. */
  lemma GetCustomersAppend(a: seq<CustomerDoc>, b: seq<CustomerDoc>)
    ensures GetCustomers(a + b) == GetCustomers(a) + GetCustomers(b)
  {
    FilterAppend(a, b, IsActiveDoc);
    MapAppend(Filter(a, IsActiveDoc), Filter(b, IsActiveDoc), Fields);
  }

  lemma GetCustomersSingle(d: CustomerDoc)
    ensures GetCustomers([d]) == if IsActiveDoc(d) then [d.data] else []
  {
    assert [d][1..] == [];
  }

  /** An active document whose customer carries the id. */
  predicate ActiveWithId(d: CustomerDoc, cid: string) {
    IsActiveDoc(d) && d.data.customer_id == Some(cid)
  }

  /** One document further: the lookup stops at the first document when it
      is active with the id, and otherwise goes on with the rest. */
  lemma FindStep(docs: seq<CustomerDoc>, cid: string)
    requires |docs| > 0
    ensures FindCustomer(GetCustomers(docs), cid)
            == if ActiveWithId(docs[0], cid) then Some(docs[0].data) else FindCustomer(GetCustomers(docs[1..]), cid)
  {
    var d, rest := docs[0], docs[1..];
    assert docs == [d] + rest;
    GetCustomersAppend([d], rest);
    GetCustomersSingle(d);
    if IsActiveDoc(d) {
      assert GetCustomers(docs) == [d.data] + GetCustomers(rest);
      FindCons(d.data, GetCustomers(rest), cid);
    } else {
      assert GetCustomers(docs) == [] + GetCustomers(rest);
      assert [] + GetCustomers(rest) == GetCustomers(rest);
    }
  }

  lemma FindCons(c: Customer, cs: seq<Customer>, cid: string)
    ensures FindCustomer([c] + cs, cid) == if c.customer_id == Some(cid) then Some(c) else FindCustomer(cs, cid)
  {
    assert ([c] + cs)[1..] == cs;
  }

  /** Looking a customer up in the query result finds the customer of the
      first active document, in document order, that carries the id. */
  lemma {:induction false} FindFirstActiveDoc(docs: seq<CustomerDoc>, cid: string)
    ensures var r := FindCustomer(GetCustomers(docs), cid);
            && (r.None? <==> forall i :: 0 <= i < |docs| ==> !ActiveWithId(docs[i], cid))
            && (r.Some? ==> exists i :: && 0 <= i < |docs| && ActiveWithId(docs[i], cid) && docs[i].data == r.value
                                        && forall j :: 0 <= j < i ==> !ActiveWithId(docs[j], cid))
    decreases |docs|
  {
    if |docs| != 0 {
      var rest := docs[1..];
      FindStep(docs, cid);
      FindFirstActiveDoc(rest, cid);
      var r := FindCustomer(GetCustomers(docs), cid);
      if !ActiveWithId(docs[0], cid) {
        if r.Some? {
          var i :| && 0 <= i < |rest| && ActiveWithId(rest[i], cid) && rest[i].data == r.value
                   && forall j :: 0 <= j < i ==> !ActiveWithId(rest[j], cid);
          assert docs[i + 1] == rest[i];
          forall j | 0 <= j < i + 1 ensures !ActiveWithId(docs[j], cid) {
            if j > 0 {
              assert docs[j] == rest[j - 1];
            }
          }
        } else {
          forall i | 0 <= i < |docs| ensures !ActiveWithId(docs[i], cid) {
            if i > 0 {
              assert docs[i] == rest[i - 1];
            }
          }
        }
      }
    }
  }

  /** `countActiveCustomers`: the size of the active-customer query. */
  function CountActiveCustomers(docs: seq<CustomerDoc>): (n: nat)
    ensures n == |GetCustomers(docs)|
  {
    if |docs| == 0 then 0
    else (if IsActiveDoc(docs[0]) then 1 else 0) + CountActiveCustomers(docs[1..])
  }

  /** `customers.find(c => c.customer_id === cid)`: the first customer with
      that id, or nothing. */
  function FindCustomer(customers: seq<Customer>, cid: string): (r: Option<Customer>)
    ensures r.None? <==> forall i :: 0 <= i < |customers| ==> customers[i].customer_id != Some(cid)
    ensures r.Some? ==> exists i :: 0 <= i < |customers| && customers[i] == r.value
                                  && r.value.customer_id == Some(cid)
                                  && forall j :: 0 <= j < i ==> customers[j].customer_id != Some(cid)
  {
    if |customers| == 0 then None
    else if customers[0].customer_id == Some(cid) then Some(customers[0])
    else
      var r := FindCustomer(customers[1..], cid);
      assert r.Some? ==> exists i :: 0 <= i < |customers| && customers[i] == r.value
                                  && r.value.customer_id == Some(cid)
                                  && forall j :: 0 <= j < i ==> customers[j].customer_id != Some(cid) by {
        if r.Some? {
          var i :| 0 <= i < |customers[1..]| && customers[1..][i] == r.value
                   && forall j :: 0 <= j < i ==> customers[1..][j].customer_id != Some(cid);
          assert customers[i + 1] == r.value;
          assert forall j :: 0 <= j < i + 1 ==> customers[j].customer_id != Some(cid) by {
            forall j | 0 <= j < i + 1 ensures customers[j].customer_id != Some(cid) {
              if j > 0 {
                assert customers[j] == customers[1..][j - 1];
              }
            }
          }
        }
      }
      assert r.None? ==> forall i :: 0 <= i < |customers| ==> customers[i].customer_id != Some(cid) by {
        if r.None? {
          forall i | 0 <= i < |customers| ensures customers[i].customer_id != Some(cid) {
            if i > 0 {
              assert customers[i] == customers[1..][i - 1];
            }
          }
        }
      }
      r
  }

  /** `collection.doc(d.id).set(...)`: writes `d` under its id, replacing a
      document with the same id and keeping every other document. */
  function SetDoc(docs: seq<CustomerDoc>, d: CustomerDoc): (r: seq<CustomerDoc>)
    requires IdsAscending(docs)
    ensures IdsAscending(r)
    ensures forall e :: e in r <==> e == d || (e in docs && e.id != d.id)
  {
    if |docs| == 0 then [d]
    else if docs[0].id == d.id then
      assert forall e :: e in docs[1..] ==> e.id != d.id by {
        forall e | e in docs[1..] ensures e.id != d.id {
          var k :| 0 <= k < |docs[1..]| && docs[1..][k] == e;
          assert LexLt(docs[0].id, docs[k + 1].id);
        }
      }
      assert docs == [docs[0]] + docs[1..];
      [d] + docs[1..]
    else if LexLe(d.id, docs[0].id) then
      assert forall j :: 0 <= j < |docs| ==> LexLt(d.id, docs[j].id) by {
        forall j | 0 <= j < |docs| ensures LexLt(d.id, docs[j].id) {
          if j > 0 {
            LexLtTransitive(d.id, docs[0].id, docs[j].id);
          }
        }
      }
      [d] + docs
    else
      var t := SetDoc(docs[1..], d);
      LexLtConnected(d.id, docs[0].id);
      assert forall j :: 0 <= j < |t| ==> LexLt(docs[0].id, t[j].id) by {
        forall j | 0 <= j < |t| ensures LexLt(docs[0].id, t[j].id) {
          assert t[j] in t;
          if t[j] != d {
            assert t[j] in docs[1..];
            var k :| 0 <= k < |docs[1..]| && docs[1..][k] == t[j];
            assert docs[k + 1] == t[j];
          }
        }
      }
      assert docs == [docs[0]] + docs[1..];
      [docs[0]] + t
  }

  /** The body fields `addCustomer` accepts. */
  datatype NewCustomer = NewCustomer(
    name: Option<string>,
    email: Option<string>,
    phone: Option<string>,
    address: Option<string>,
    location: Option<Location>)

  /** `cust_${Date.now()}` for the clock reading `stamp`. */
  function NewCustomerId(stamp: nat): string {
    CustomerIdPrefix + Decimal(stamp)
  }

  /** The record `addCustomer` stores and returns. */
  function CustomerRecord(body: NewCustomer, stamp: nat, now: int): Customer {
    Customer(Some(NewCustomerId(stamp)), body.name, body.email, body.phone, body.address,
             body.location, Some(now), Some(ActiveStatus))
  }

  /** `addCustomer(body)`: stores a new active customer under a fresh
      "cust_" id and returns the stored record. `stamp` is the millisecond
      clock reading that names it and `now` the registration time. */
  function AddCustomer(docs: seq<CustomerDoc>, body: NewCustomer, stamp: nat, now: int): (r: (seq<CustomerDoc>, Customer))
    requires IdsAscending(docs)
    ensures IdsAscending(r.0)
    ensures r.1.customer_id.Some? && StartsWith(r.1.customer_id.value, CustomerIdPrefix)
    ensures r.1.customer_id == Some(NewCustomerId(stamp))
    ensures r.1.status == Some(ActiveStatus)
    ensures r.1.registered_date == Some(now)
    ensures && r.1.name == body.name && r.1.email == body.email && r.1.phone == body.phone
            && r.1.address == body.address && r.1.location == body.location
    ensures CustomerDoc(r.1.customer_id.value, r.1, map[]) in r.0
    ensures forall e :: e in r.0 ==> e.id == r.1.customer_id.value || e in docs
    ensures forall e :: e in docs && e.id != r.1.customer_id.value ==> e in r.0
    ensures r.1 in GetCustomers(r.0)
  {
    var c := CustomerRecord(body, stamp, now);
    var docs' := SetDoc(docs, CustomerDoc(NewCustomerId(stamp), c, map[]));
    assert CustomerDoc(NewCustomerId(stamp), c, map[]) in docs';
    var k :| 0 <= k < |docs'| && docs'[k] == CustomerDoc(NewCustomerId(stamp), c, map[]);
    assert IsActiveDoc(docs'[k]);
    (docs', c)
  }

  /** Two different clock readings name two different customers. */
  lemma NewCustomerIdsDiffer(stamp1: nat, stamp2: nat)
    requires stamp1 != stamp2
    ensures NewCustomerId(stamp1) != NewCustomerId(stamp2)
  {
    if NewCustomerId(stamp1) == NewCustomerId(stamp2) {
      assert Decimal(stamp1) == NewCustomerId(stamp1)[|CustomerIdPrefix|..];
      assert Decimal(stamp2) == NewCustomerId(stamp2)[|CustomerIdPrefix|..];
      DecimalInjective(stamp1, stamp2);
    }
  }

  // ---------------------------------------------------------------------
  // logRestockAlert (restock_log collection)
  // ---------------------------------------------------------------------

  /** The fields `logRestockAlert` destructures from its argument. */
  const RestockLogFields: set<string> :=
    {"product_id", "product_name", "current_quantity", "reorder_level", "reorder_quantity", "status"}

  /** A destructured field: `undefined` when the argument lacks it. */
  function FieldOf(data: Document, k: string): Value {
    if k in data then data[k] else Undefined
  }

  /** The document `logRestockAlert` writes: the six named fields and the
      write time, nothing else. */
  function RestockLogEntry(data: Document, now: int): (r: Document)
    ensures r.Keys == RestockLogFields + {"timestamp"}
    ensures forall k :: k in RestockLogFields ==> r[k] == FieldOf(data, k)
    ensures r["timestamp"] == Time(now)
  {
    map["product_id" := FieldOf(data, "product_id"),
        "product_name" := FieldOf(data, "product_name"),
        "current_quantity" := FieldOf(data, "current_quantity"),
        "reorder_level" := FieldOf(data, "reorder_level"),
        "reorder_quantity" := FieldOf(data, "reorder_quantity"),
        "timestamp" := Time(now),
        "status" := FieldOf(data, "status")]
  }

  /** `logRestockAlert(data)`: appends one entry to the restock log. */
  function LogRestockAlert(log: seq<Document>, data: Document, now: int): (r: seq<Document>)
    ensures |r| == |log| + 1
    ensures r[..|log|] == log
    ensures r[|log|].Keys == RestockLogFields + {"timestamp"}
    ensures forall k :: k in RestockLogFields ==> r[|log|][k] == FieldOf(data, k)
  {
    log + [RestockLogEntry(data, now)]
  }
}

=== FILE: effects.dfy ===
/** The system state as the three pipeline stages see it, and the effects
    they have on it. A stage does not change the state directly: it returns
    the list of effects it performed, in order, and `ApplyAll` interprets the
    list. Properties about the order of effects are therefore statements about
    that list. */
module Effects {
  import opened Records
  import opened Warehouse

  /** The abstract stores: the two warehouse tables, the customers
      collection, the restock alert collection, the two topics and the mail
      outbox. */
  datatype State = State(
    inventory: seq<Product>,
    orders: seq<OrderRow>,
    customers: seq<CustomerDoc>,
    restockAlerts: seq<Document>,
    orderTopic: seq<OrderMessage>,
    restockTopic: seq<RestockMessage>,
    outbox: seq<Email>)

  /** One completed outbound call that changes something. */
  datatype Effect =
    | PublishOrder(order: OrderMessage)
    | InsertOrder(row: OrderRow)
    | UpdateStock(product_id: string, quantity: int, today: int)
    | PublishRestock(check: RestockMessage)
    | WriteAlert(alert: Document)
    | SendEmail(email: Email)

  /** How a background function invocation ends: normally, or by throwing. */
  datatype Outcome = Completed | Thrown(message: string)

  /** The effects one invocation performed, in order, and how it ended. */
  datatype Run = Run(effects: seq<Effect>, outcome: Outcome)

  function Apply(s: State, e: Effect): State {
    match e
    case PublishOrder(m) => s.(orderTopic := s.orderTopic + [m])
    case InsertOrder(row) => s.(orders := s.orders + [row])
    case UpdateStock(pid, q, today) => s.(inventory := UpdateInventory(s.inventory, pid, q, today))
    case PublishRestock(m) => s.(restockTopic := s.restockTopic + [m])
    case WriteAlert(doc) => s.(restockAlerts := s.restockAlerts + [doc])
    case SendEmail(mail) => s.(outbox := s.outbox + [mail])
  }

  function ApplyAll(s: State, es: seq<Effect>): State
    decreases |es|
  {
    if |es| == 0 then s else ApplyAll(Apply(s, es[0]), es[1..])
  }

  /** Order publications, one per message, in order. */
  function Publishes(ms: seq<OrderMessage>): (r: seq<Effect>)
    ensures |r| == |ms|
    ensures forall k :: 0 <= k < |ms| ==> r[k] == PublishOrder(ms[k])
  {
    if |ms| == 0 then [] else [PublishOrder(ms[0])] + Publishes(ms[1..])
  }

  /** Publishing order messages appends them to the order topic and changes
      nothing else. */
  lemma {:induction false} PublishesAppend(s: State, ms: seq<OrderMessage>)
    ensures ApplyAll(s, Publishes(ms)) == s.(orderTopic := s.orderTopic + ms)
    decreases |ms|
  {
    if |ms| != 0 {
      PublishesAppend(Apply(s, PublishOrder(ms[0])), ms[1..]);
      assert Publishes(ms)[1..] == Publishes(ms[1..]);
      assert s.orderTopic + [ms[0]] + ms[1..] == s.orderTopic + ms;
    }
  }

  /** Applying one more effect after a list of them. */
  lemma {:induction false} ApplyAllSnoc(s: State, es: seq<Effect>, e: Effect)
    ensures ApplyAll(s, es + [e]) == Apply(ApplyAll(s, es), e)
    decreases |es|
  {
    if |es| == 0 {
      assert es + [e] == [e];
    } else {
      assert (es + [e])[1..] == es[1..] + [e];
      ApplyAllSnoc(Apply(s, es[0]), es[1..], e);
    }
  }
}

=== FILE: map_routes.dfy ===
/** The map routes (appengine/routes/map.js): customer markers with the
    warehouse marker, the browser API key, and the address geocoder. The
    process environment and the geocoding service's reply are parameters. */
module MapRoutes {
  import opened Base
  import opened Records
  import opened CustomerStore

  const HqName := "SmartStock Warehouse"
  const KeyMissing := "API key not configured"
  const AddressMissing := "Missing address parameter"
  const GeocodeRequestFailed := "Geocoding request failed"
  const GeocodeFailedPrefix := "Geocoding failed: "
  const StatusOk := "OK"

  /** Both coordinates of the customer's location are present and non-zero. */
  predicate HasCoordinates(c: Customer) {
    c.location.Some? && TruthyReal(c.location.value.latitude) && TruthyReal(c.location.value.longitude)
  }

  function MarkerOf(c: Customer): Marker
    requires HasCoordinates(c)
  {
    CustomerMarker(c.customer_id, c.name, c.location.value.latitude.value, c.location.value.longitude.value)
  }

  /** The markers of the customers with coordinates, in customer order. */
  function CustomerMarkers(customers: seq<Customer>): (r: seq<Marker>)
    ensures |r| <= |customers|
    ensures forall k :: 0 <= k < |r| ==> r[k].CustomerMarker? && r[k].lat != 0.0 && r[k].lng != 0.0
    ensures forall c :: c in customers && HasCoordinates(c) ==> MarkerOf(c) in r
    ensures forall m :: m in r ==> exists c :: c in customers && HasCoordinates(c) && m == MarkerOf(c)
  {
    if |customers| == 0 then []
    else
      var rest := CustomerMarkers(customers[1..]);
      assert forall c :: c in customers[1..] ==> c in customers;
      assert forall c :: c in customers ==> c == customers[0] || c in customers[1..];
      if HasCoordinates(customers[0]) then [MarkerOf(customers[0])] + rest else rest
  }

  /** The markers follow the customer order: the markers of two customer
      lists in a row are those of the first list followed by those of the
      second. With `CustomerMarkersSingle` this fixes the markers, their
      order and their number (one per customer with coordinates, duplicates
      included). */
  lemma {:induction false} CustomerMarkersAppend(a: seq<Customer>, b: seq<Customer>)
    ensures CustomerMarkers(a + b) == CustomerMarkers(a) + CustomerMarkers(b)
    decreases |a|
  {
    if |a| == 0 {
      assert a + b == b;
    } else {
      assert (a + b)[0] == a[0];
      assert (a + b)[1..] == a[1..] + b;
      CustomerMarkersAppend(a[1..], b);
    }
  }

  /** One customer gives one marker when both coordinates are non-zero and
      none otherwise. */
  lemma CustomerMarkersSingle(c: Customer)
    ensures CustomerMarkers([c]) == if HasCoordinates(c) then [MarkerOf(c)] else []
  {
    assert [c][1..] == [];
  }

  /** The call of the route: the customer query. */
  const MarkersQueryCall := 0

  /** `GET /map/locations`; `hqLat` and `hqLng` are the parsed HQ
      coordinates, `None` when they do not parse. */
  function Locations(docs: seq<CustomerDoc>, hqLat: Option<real>, hqLng: Option<real>, f: Faults): (r: Response)
    ensures r.code in {200, 500}
    ensures r.code == 500 <==> f.Fails(MarkersQueryCall)
    ensures r.code == 500 ==> r.body == Failure(InternalError)
    ensures r.code == 200 ==> r.body.Markers?
    ensures r.code == 200 && hqLat.Some? && hqLng.Some? ==>
              && |r.body.markers| > 0
              && r.body.markers[|r.body.markers| - 1] == HqMarker(HqName, hqLat.value, hqLng.value)
              && r.body.markers[..|r.body.markers| - 1] == CustomerMarkers(GetCustomers(docs))
    ensures r.code == 200 && (hqLat.None? || hqLng.None?) ==>
              r.body.markers == CustomerMarkers(GetCustomers(docs))
    ensures r.code == 200 ==>
              forall k :: 0 <= k < |r.body.markers| && r.body.markers[k].HqMarker? ==>
                k == |r.body.markers| - 1 && hqLat.Some? && hqLng.Some?
  {
    if f.Fails(MarkersQueryCall) then Response(500, Failure(InternalError))
    else
      var markers := CustomerMarkers(GetCustomers(docs));
      if hqLat.Some? && hqLng.Some? then
        Response(200, Markers(markers + [HqMarker(HqName, hqLat.value, hqLng.value)]))
      else
        Response(200, Markers(markers))
  }

  /** `GET /map/apikey`; `key` is the configured key. */
  function ApiKeyRoute(key: Option<string>): (r: Response)
    ensures r.code == 500 <==> !TruthyStr(key)
    ensures r.code == 500 ==> r.body == Failure(KeyMissing)
    ensures r.code != 500 ==> r.code == 200 && r.body == ApiKey(key.value) && key.value != ""
  {
    if !TruthyStr(key) then Response(500, Failure(KeyMissing)) else Response(200, ApiKey(key.value))
  }

  /** A geocoding result's location. */
  datatype GeoPoint = GeoPoint(lat: real, lng: real)

  /** What the geocoding request yields: the request or its decoding threw,
      or the service answered with a status and results. */
  datatype GeoReply = FetchFailed | GeoReply(status: string, results: seq<GeoPoint>)

  /** `GET /map/geocode?address=…`; `reply` is what the geocoding service
      would answer. Returns the answer and the addresses actually sent to
      the service. */
  function Geocode(address: Option<string>, reply: GeoReply): (r: (Response, seq<string>))
    ensures !TruthyStr(address) <==> r.0.code == 400
    ensures !TruthyStr(address) ==> r.0.body == Failure(AddressMissing) && r.1 == []
    ensures TruthyStr(address) ==> r.1 == [address.value]
    ensures r.0.code == 200 <==> TruthyStr(address) && reply.GeoReply? && reply.status == StatusOk && |reply.results| > 0
    ensures r.0.code == 200 ==> r.0.body == Coordinates(reply.results[0].lat, reply.results[0].lng)
    ensures TruthyStr(address) && reply.GeoReply? && reply.status != StatusOk ==>
              r.0 == Response(500, Failure(GeocodeFailedPrefix + reply.status))
    ensures TruthyStr(address) && (reply.FetchFailed? || (reply.status == StatusOk && |reply.results| == 0)) ==>
              r.0 == Response(500, Failure(GeocodeRequestFailed))
  {
    if !TruthyStr(address) then (Response(400, Failure(AddressMissing)), [])
    else
      var sent := [address.value];
      match reply
      case FetchFailed => (Response(500, Failure(GeocodeRequestFailed)), sent)
      case GeoReply(status, results) =>
        if status == StatusOk then
          if |results| == 0 then (Response(500, Failure(GeocodeRequestFailed)), sent)
          else (Response(200, Coordinates(results[0].lat, results[0].lng)), sent)
        else (Response(500, Failure(GeocodeFailedPrefix + status)), sent)
  }
}

=== FILE: order_intake.dfy ===
/** The order submission route (appengine/routes/order.js, POST /order): it
    validates the request, checks the customer exists, and publishes one
    order message per acceptable cart line on the order topic. It never
    touches the inventory itself; the order processor does that later. */
module OrderIntake {
  import opened Base
  import opened Seqs
  import opened Records
  import opened Warehouse
  import opened CustomerStore
  import opened Effects

  const MissingOrderFields := "Missing required order fields"
  const CustomerNotFound := "Customer not found"
  const SubmitFailed := "Failed to submit order"
  const SubmitSucceeded := "Order submitted successfully"

  /** One cart line as the client sends it; either field may be absent. */
  datatype CartLine = CartLine(product_id: Option<string>, quantity: Option<int>)

  /** The request body: the single-item fields and the optional cart. A cart
      that is not an array is the same as no cart. */
  datatype OrderRequest = OrderRequest(
    customer_id: Option<string>,
    product_id: Option<string>,
    quantity: Option<int>,
    items: Option<seq<CartLine>>)

  /** The request is refused outright: no customer id, or an empty cart. */
  predicate MissingFields(req: OrderRequest) {
    !TruthyStr(req.customer_id) || (req.items.Some? && |req.items.value| == 0)
  }

  /** The lines to process: the cart, or the single item when there is none. */
  function Cart(req: OrderRequest): (r: seq<CartLine>)
    ensures req.items.None? ==> r == [CartLine(req.product_id, req.quantity)]
    ensures req.items.Some? ==> r == req.items.value
    ensures !MissingFields(req) ==> |r| > 0
  {
    if req.items.Some? then req.items.value else [CartLine(req.product_id, req.quantity)]
  }

  /** A line dropped without any lookup: no product id, or no positive
      quantity. */
  predicate Skipped(line: CartLine) {
    !TruthyStr(line.product_id) || !TruthyInt(line.quantity) || line.quantity.value <= 0
  }

  /** A line that becomes an order message: not skipped, and its product
      exists. */
  predicate Accepted(inventory: seq<Product>, line: CartLine) {
    !Skipped(line) && GetProductById(inventory, line.product_id.value).Some?
  }

  /** The message published for an accepted line, priced from the stored
      product row. */
  function PayloadFor(inventory: seq<Product>, line: CartLine, orderId: string, cid: string, now: int): OrderMessage
    requires Accepted(inventory, line)
  {
    var p := GetProductById(inventory, line.product_id.value).value;
    var q := line.quantity.value;
    OrderMessage(orderId, cid, line.product_id.value, p.product_name, q, p.unit_price, p.unit_price * q, now)
  }

  /** The messages a fault-free submission of `lines` publishes, in cart
      order. */
  function ExpectedMessages(inventory: seq<Product>, lines: seq<CartLine>, orderId: string, cid: string, now: int): (r: seq<OrderMessage>)
    ensures |r| <= |lines|
    decreases |lines|
  {
    if |lines| == 0 then []
    else
      var last := lines[|lines| - 1];
      ExpectedMessages(inventory, lines[..|lines| - 1], orderId, cid, now)
      + (if Accepted(inventory, last) then [PayloadFor(inventory, last, orderId, cid, now)] else [])
  }

  /** `Accepted` against a fixed inventory, as a line predicate. */
  function AcceptedIn(inventory: seq<Product>): CartLine -> bool {
    (l: CartLine) => Accepted(inventory, l)
  }

  /** The accepted lines of a cart, in cart order. */
  function AcceptedLines(inventory: seq<Product>, lines: seq<CartLine>): (r: seq<CartLine>)
    ensures forall k :: 0 <= k < |r| ==> Accepted(inventory, r[k])
  {
    var r := Filter(lines, AcceptedIn(inventory));
    assert forall k :: 0 <= k < |r| ==> r[k] in r;
    r
  }

  /** The last line of a cart is accepted or not on its own. */
  lemma AcceptedLinesSnoc(inventory: seq<Product>, init: seq<CartLine>, last: CartLine)
    ensures AcceptedLines(inventory, init + [last])
            == AcceptedLines(inventory, init) + (if Accepted(inventory, last) then [last] else [])
  {
    FilterAppend(init, [last], AcceptedIn(inventory));
    FilterUnfold([last], AcceptedIn(inventory));
    assert [last][1..] == [];
  }

  /** Exactly one message per accepted line, in cart order: the k-th message
      is the payload of the k-th accepted line. */
  lemma {:induction false} ExpectedMessagesPerLine(inventory: seq<Product>, lines: seq<CartLine>, orderId: string, cid: string, now: int)
    ensures var r := ExpectedMessages(inventory, lines, orderId, cid, now);
            var acc := AcceptedLines(inventory, lines);
            && |r| == |acc|
            && forall k :: 0 <= k < |r| ==> r[k] == PayloadFor(inventory, acc[k], orderId, cid, now)
    decreases |lines|
  {
    if |lines| == 0 {
      assert AcceptedLines(inventory, lines) == [];
    } else {
      var init, last := lines[..|lines| - 1], lines[|lines| - 1];
      assert lines == init + [last];
      ExpectedMessagesPerLine(inventory, init, orderId, cid, now);
      AcceptedLinesSnoc(inventory, init, last);
    }
  }

  /** Every accepted line is published, only accepted lines are, and every
      message carries the submission's order id, customer and time and is
      priced from the stored product row at the ordered quantity. */
  lemma {:induction false} ExpectedMessagesMembers(inventory: seq<Product>, lines: seq<CartLine>, orderId: string, cid: string, now: int)
    ensures var r := ExpectedMessages(inventory, lines, orderId, cid, now);
            && (forall m :: m in r ==>
                  && m.order_id == orderId && m.customer_id == cid && m.timestamp == now
                  && m.quantity_ordered > 0
                  && m.total_price == m.unit_price * m.quantity_ordered
                  && GetProductById(inventory, m.product_id).Some?
                  && GetProductById(inventory, m.product_id).value.product_name == m.product_name
                  && GetProductById(inventory, m.product_id).value.unit_price == m.unit_price)
            && (forall i :: 0 <= i < |lines| && Accepted(inventory, lines[i]) ==>
                  PayloadFor(inventory, lines[i], orderId, cid, now) in r)
            && (forall m :: m in r ==> exists i :: 0 <= i < |lines| && Accepted(inventory, lines[i])
                                                  && m == PayloadFor(inventory, lines[i], orderId, cid, now))
    decreases |lines|
  {
    if |lines| != 0 {
      var init := lines[..|lines| - 1];
      ExpectedMessagesMembers(inventory, init, orderId, cid, now);
      assert forall i :: 0 <= i < |init| ==> init[i] == lines[i];
    }
  }

  /** One more line of the cart adds that line's message, if any, and its
      calls. */
  lemma ExpectedStep(inventory: seq<Product>, cart: seq<CartLine>, i: nat, orderId: string, cid: string, now: int)
    requires i < |cart|
    ensures ExpectedMessages(inventory, cart[..i + 1], orderId, cid, now)
            == ExpectedMessages(inventory, cart[..i], orderId, cid, now)
               + (if Accepted(inventory, cart[i]) then [PayloadFor(inventory, cart[i], orderId, cid, now)] else [])
    ensures CallsFor(inventory, cart[..i + 1]) == CallsFor(inventory, cart[..i]) + LineCalls(inventory, cart[i])
  {
    assert cart[..i + 1][..i] == cart[..i];
  }

  /** The outbound calls a line costs after the customer query: none when
      skipped, a lookup, and a publish when the product exists. */
  function LineCalls(inventory: seq<Product>, line: CartLine): nat {
    if Skipped(line) then 0 else if Accepted(inventory, line) then 2 else 1
  }

  function CallsFor(inventory: seq<Product>, lines: seq<CartLine>): nat
    decreases |lines|
  {
    if |lines| == 0 then 0
    else CallsFor(inventory, lines[..|lines| - 1]) + LineCalls(inventory, lines[|lines| - 1])
  }

  /** Processing a leading part of the cart publishes a leading part of the
      messages and makes no more calls than the whole cart. */
  lemma {:induction false} PrefixOfCart(inventory: seq<Product>, lines: seq<CartLine>, j: nat, orderId: string, cid: string, now: int)
    requires j <= |lines|
    ensures IsPrefix(ExpectedMessages(inventory, lines[..j], orderId, cid, now), ExpectedMessages(inventory, lines, orderId, cid, now))
    ensures CallsFor(inventory, lines[..j]) <= CallsFor(inventory, lines)
    decreases |lines|
  {
    if j == |lines| {
      assert lines[..j] == lines;
    } else {
      var init := lines[..|lines| - 1];
      PrefixOfCart(inventory, init, j, orderId, cid, now);
      assert init[..j] == lines[..j];
    }
  }

  /** Publishing a leading part of a message list is a leading part of
      publishing all of it. */
  lemma PublishesPrefix(a: seq<OrderMessage>, b: seq<OrderMessage>)
    requires IsPrefix(a, b)
    ensures IsPrefix(Publishes(a), Publishes(b))
  {
    assert Publishes(b)[..|a|] == Publishes(a);
  }

  /** The call numbers of a submission: 0 is the customer query. */
  const CustomerCheckCall := 0

  /** The customer the request names exists among the active customers. */
  predicate CustomerKnown(customers: seq<CustomerDoc>, req: OrderRequest)
    requires !MissingFields(req)
  {
    FindCustomer(GetCustomers(customers), req.customer_id.value).Some?
  }

  /** `POST /order` against the state `s`. `orderId` is the uuid drawn for
      the submission and `now` the clock reading stamped on its messages.
      The answer and the publications performed are returned. */
  method SubmitOrder(s: State, req: OrderRequest, orderId: string, now: int, f: Faults)
    returns (resp: Response, effects: seq<Effect>)
    ensures resp.code in {200, 400, 404, 500}
    ensures resp.code == 400 <==> MissingFields(req)
    ensures resp.code == 400 ==> resp.body == Failure(MissingOrderFields)
    ensures resp.code == 404 <==> !MissingFields(req) && !f.Fails(CustomerCheckCall) && !CustomerKnown(s.customers, req)
    ensures resp.code == 404 ==> resp.body == Failure(CustomerNotFound)
    ensures resp.code in {400, 404} ==> effects == []
    ensures f.Fails(CustomerCheckCall) ==> effects == []
    ensures resp.code == 500 && f.FailCall? && !f.Fails(CustomerCheckCall) ==>
              var cart := Cart(req);
              exists k :: && 0 <= k < |cart|
                          && 1 + CallsFor(s.inventory, cart[..k]) <= f.index < 1 + CallsFor(s.inventory, cart[..k + 1])
                          && effects == Publishes(ExpectedMessages(s.inventory, cart[..k], orderId, req.customer_id.value, now))
    ensures resp.code == 500 ==> f.FailCall? && resp.body == Failure(SubmitFailed)
    ensures resp.code == 200 <==>
              && !MissingFields(req) && !f.Fails(CustomerCheckCall) && CustomerKnown(s.customers, req)
              && (f.NoFault? || f.index >= 1 + CallsFor(s.inventory, Cart(req)))
    ensures resp.code == 200 ==> resp.body == Submitted("success", SubmitSucceeded)
    ensures !MissingFields(req) ==>
              IsPrefix(effects, Publishes(ExpectedMessages(s.inventory, Cart(req), orderId, req.customer_id.value, now)))
    ensures resp.code == 200 ==>
              effects == Publishes(ExpectedMessages(s.inventory, Cart(req), orderId, req.customer_id.value, now))
  {
    if MissingFields(req) {
      return Response(400, Failure(MissingOrderFields)), [];
    }
    if f.Fails(CustomerCheckCall) {
      return Response(500, Failure(SubmitFailed)), [];
    }
    var cid := req.customer_id.value;
    if FindCustomer(GetCustomers(s.customers), cid).None? {
      return Response(404, Failure(CustomerNotFound)), [];
    }
    var published, failed := PublishCart(s.inventory, Cart(req), orderId, cid, now, f);
    PublishesPrefix(published, ExpectedMessages(s.inventory, Cart(req), orderId, cid, now));
    if failed {
      return Response(500, Failure(SubmitFailed)), Publishes(published);
    }
    return Response(200, Submitted("success", SubmitSucceeded)), Publishes(published);
  }

  /** The loop over the cart lines, after a successful customer query (call
      0): the messages published before the first failing call, and whether
      a call failed. */
  method PublishCart(inventory: seq<Product>, cart: seq<CartLine>, orderId: string, cid: string, now: int, f: Faults)
    returns (published: seq<OrderMessage>, failed: bool)
    requires !f.Fails(CustomerCheckCall)
    ensures IsPrefix(published, ExpectedMessages(inventory, cart, orderId, cid, now))
    ensures failed <==> f.FailCall? && f.index < 1 + CallsFor(inventory, cart)
    ensures !failed ==> published == ExpectedMessages(inventory, cart, orderId, cid, now)
    ensures failed ==>
              exists k :: && 0 <= k < |cart|
                          && 1 + CallsFor(inventory, cart[..k]) <= f.index < 1 + CallsFor(inventory, cart[..k + 1])
                          && published == ExpectedMessages(inventory, cart[..k], orderId, cid, now)
  {
    published := [];
    var calls := 1;
    var i := 0;
    while i < |cart|
      invariant 0 <= i <= |cart|
      invariant published == ExpectedMessages(inventory, cart[..i], orderId, cid, now)
      invariant calls == 1 + CallsFor(inventory, cart[..i])
      invariant f.NoFault? || f.index >= calls
    {
      var line := cart[i];
      ExpectedStep(inventory, cart, i, orderId, cid, now);
      PrefixOfCart(inventory, cart, i + 1, orderId, cid, now);
      PrefixOfCart(inventory, cart, i, orderId, cid, now);
      if !Skipped(line) {
        if f.Fails(calls) {
          return published, true;
        }
        var product := GetProductById(inventory, line.product_id.value);
        calls := calls + 1;
        if product.Some? {
          if f.Fails(calls) {
            return published, true;
          }
          published := published + [PayloadFor(inventory, line, orderId, cid, now)];
          calls := calls + 1;
        }
      }
      i := i + 1;
    }
    assert cart[..|cart|] == cart;
    return published, false;
  }

  /** Without a cart, a valid single item becomes exactly one message, and an
      invalid or unknown one becomes none. */
  lemma SingleItemFormat(inventory: seq<Product>, req: OrderRequest, orderId: string, now: int)
    requires !MissingFields(req) && req.items.None?
    ensures var line := CartLine(req.product_id, req.quantity);
            var ms := ExpectedMessages(inventory, Cart(req), orderId, req.customer_id.value, now);
            && (Accepted(inventory, line) ==> ms == [PayloadFor(inventory, line, orderId, req.customer_id.value, now)])
            && (!Accepted(inventory, line) ==> ms == [])
  {
    var cart := Cart(req);
    assert cart[..0] == [];
  }
}

=== FILE: order_processor.dfy ===
/** The order processor background function
    (functions/orderProcessor/index.js): for one order message it re-checks
    the product's stock, logs the order, decrements the stock and asks for a
    restock check. Any failure is rethrown as one uniform error. */
module OrderProcessor {
  import opened Base
  import opened Seqs
  import opened Records
  import opened Warehouse
  import opened Effects

  const ProcessingFailed := "Order processing failed"

  /** The fresh values the processor's callees draw: the uuid and clock
      reading of `logOrder` and CURRENT_DATE() of `updateInventory`. */
  datatype Fresh = Fresh(uuid: string, now: int, today: int)

  /** The effects of a successful run, in the order they happen: log the
      order, update the inventory, publish the restock check. */
  function SuccessTrace(m: OrderMessage, env: Fresh): (r: seq<Effect>)
    ensures |r| == 3
    ensures r[0].InsertOrder? && r[0].row == OrderRowFor(m, env.uuid, env.now)
    ensures r[1].UpdateStock? && r[1].product_id == m.product_id && r[1].quantity == m.quantity_ordered
    ensures r[2].PublishRestock? && r[2].check.product_id == m.product_id
  {
    [InsertOrder(OrderRowFor(m, env.uuid, env.now)),
     UpdateStock(m.product_id, m.quantity_ordered, env.today),
     PublishRestock(RestockMessage(m.product_id))]
  }

  /** Outbound calls, numbered as `Faults` counts them. */
  const LookupCall := 0
  const LogCall := 1
  const UpdateCall := 2
  const PublishCall := 3

  /** No call of a processor run fails. */
  predicate AllCallsSucceed(f: Faults) {
    f.SucceedsThrough(PublishCall)
  }

  /** `orderProcessor(message)` against the inventory rows `inventory`. */
  function ProcessOrder(inventory: seq<Product>, m: OrderMessage, env: Fresh, f: Faults): (r: Run)
    ensures r.outcome.Thrown? ==> r.outcome.message == ProcessingFailed
    ensures IsPrefix(r.effects, SuccessTrace(m, env))
    ensures r.outcome == Completed ==> r.effects == SuccessTrace(m, env)
    ensures GetProductById(inventory, m.product_id).None? ==> r.effects == [] && r.outcome.Thrown?
    ensures GetProductById(inventory, m.product_id).Some?
            && GetProductById(inventory, m.product_id).value.stock_quantity < m.quantity_ordered
            ==> r.effects == [] && r.outcome.Thrown?
    ensures f.Fails(LookupCall) ==> r.effects == [] && r.outcome.Thrown?
    ensures && f.FailCall? && LogCall <= f.index <= PublishCall
            && GetProductById(inventory, m.product_id).Some?
            && GetProductById(inventory, m.product_id).value.stock_quantity >= m.quantity_ordered
            ==> r.effects == SuccessTrace(m, env)[..f.index - 1] && r.outcome.Thrown?
    ensures r.outcome == Completed <==>
              && AllCallsSucceed(f)
              && GetProductById(inventory, m.product_id).Some?
              && GetProductById(inventory, m.product_id).value.stock_quantity >= m.quantity_ordered
  {
    var trace := SuccessTrace(m, env);
    if f.Fails(LookupCall) then Run([], Thrown(ProcessingFailed))
    else match GetProductById(inventory, m.product_id)
      case None => Run([], Thrown(ProcessingFailed))
      case Some(p) =>
        if p.stock_quantity < m.quantity_ordered then Run([], Thrown(ProcessingFailed))
        else if f.Fails(LogCall) then Run([], Thrown(ProcessingFailed))
        else if f.Fails(UpdateCall) then Run(trace[..1], Thrown(ProcessingFailed))
        else if f.Fails(PublishCall) then Run(trace[..2], Thrown(ProcessingFailed))
        else Run(trace, Completed)
  }

  /** A failed inventory update after a successful log leaves the order
      logged and the stock untouched, and the message fails. */
  lemma UpdateFailureLeavesOrderLogged(inventory: seq<Product>, m: OrderMessage, env: Fresh)
    requires GetProductById(inventory, m.product_id).Some?
    requires GetProductById(inventory, m.product_id).value.stock_quantity >= m.quantity_ordered
    ensures var r := ProcessOrder(inventory, m, env, FailCall(UpdateCall));
            r.outcome.Thrown? && |r.effects| == 1 && r.effects[0].InsertOrder?
  {
  }
}

=== FILE: pipeline.dfy ===
/** The order pipeline as a state machine: the processor consumes order
    messages and the restock handler consumes restock checks, each step
    applying the effects its handler performed. Deliveries are handled one
    at a time. */
module Pipeline {
  import opened Base
  import opened Seqs
  import opened Records
  import opened Warehouse
  import opened Effects
  import opened OrderProcessor
  import opened RestockHandler

  /** The inventory invariant: one row per product, no negative stock. */
  predicate StockInvariant(inventory: seq<Product>) {
    UniqueIds(inventory) && forall i :: 0 <= i < |inventory| ==> inventory[i].stock_quantity >= 0
  }

  /** One delivery of an order message to the processor. */
  function ProcessStep(s: State, m: OrderMessage, env: Fresh, f: Faults): State {
    ApplyAll(s, ProcessOrder(s.inventory, m, env, f).effects)
  }

  /** One delivery of a restock check to the restock handler. */
  function RestockStep(s: State, m: RestockMessage, now: int, f: Faults): State {
    ApplyAll(s, HandleRestock(s.inventory, m, now, f).effects)
  }

  /** Applying a leading part of the processor's trace. */
  lemma {:induction false} ProcessorTracePrefixes(s: State, m: OrderMessage, env: Fresh, n: nat)
    requires n <= 3
    ensures var s' := ApplyAll(s, SuccessTrace(m, env)[..n]);
            && s'.customers == s.customers && s'.restockAlerts == s.restockAlerts
            && s'.orderTopic == s.orderTopic && s'.outbox == s.outbox
            && s'.orders == (if n >= 1 then LogOrder(s.orders, m, env.uuid, env.now) else s.orders)
            && s'.inventory == (if n >= 2 then UpdateInventory(s.inventory, m.product_id, m.quantity_ordered, env.today) else s.inventory)
            && s'.restockTopic == (if n >= 3 then s.restockTopic + [RestockMessage(m.product_id)] else s.restockTopic)
  {
    var t := SuccessTrace(m, env);
    if n > 0 {
      ProcessorTracePrefixes(s, m, env, n - 1);
      assert t[..n] == t[..n - 1] + [t[n - 1]];
      ApplyAllSnoc(s, t[..n - 1], t[n - 1]);
    }
  }

  /** A successful processing step logs exactly one order, decrements the
      product's stock, publishes exactly one restock check for it, and
      changes nothing else. */
  lemma ProcessedOrderState(s: State, m: OrderMessage, env: Fresh, f: Faults)
    requires ProcessOrder(s.inventory, m, env, f).outcome == Completed
    ensures ProcessStep(s, m, env, f) == s.(orders := LogOrder(s.orders, m, env.uuid, env.now),
                                            inventory := UpdateInventory(s.inventory, m.product_id, m.quantity_ordered, env.today),
                                            restockTopic := s.restockTopic + [RestockMessage(m.product_id)])
  {
    assert SuccessTrace(m, env)[..3] == SuccessTrace(m, env);
    ProcessorTracePrefixes(s, m, env, 3);
  }

  /** A processing step that is refused (unknown product or short stock)
      leaves every store as it was. */
  lemma RefusedOrderChangesNothing(s: State, m: OrderMessage, env: Fresh, f: Faults)
    requires || GetProductById(s.inventory, m.product_id).None?
             || GetProductById(s.inventory, m.product_id).value.stock_quantity < m.quantity_ordered
    ensures ProcessStep(s, m, env, f) == s
  {
  }

  /** Any processing step, whichever call fails, keeps the inventory
      invariant: stock is only ever decremented after the stock check
      passed. */
  lemma {:induction false} ProcessPreservesStockInvariant(s: State, m: OrderMessage, env: Fresh, f: Faults)
    requires StockInvariant(s.inventory)
    ensures StockInvariant(ProcessStep(s, m, env, f).inventory)
  {
    var r := ProcessOrder(s.inventory, m, env, f);
    var n := |r.effects|;
    assert r.effects == SuccessTrace(m, env)[..n];
    ProcessorTracePrefixes(s, m, env, n);
    if n >= 2 {
      var inv := s.inventory;
      var inv' := UpdateInventory(inv, m.product_id, m.quantity_ordered, env.today);
      var p := GetProductById(inv, m.product_id).value;
      forall i | 0 <= i < |inv'| ensures inv'[i].stock_quantity >= 0 {
        if inv[i].product_id == m.product_id {
          assert inv[i] == p;
        }
      }
    }
  }

  /** A restock step never touches the inventory, the orders, the customers
      or the topics; with every call succeeding it records exactly one alert
      and sends exactly one e-mail when the stock is below the reorder
      level, and neither otherwise. */
  lemma RestockStepEffects(s: State, m: RestockMessage, now: int, f: Faults)
    ensures var s' := RestockStep(s, m, now, f);
            && s'.inventory == s.inventory && s'.orders == s.orders && s'.customers == s.customers
            && s'.orderTopic == s.orderTopic && s'.restockTopic == s.restockTopic
            && |s.restockAlerts| <= |s'.restockAlerts| <= |s.restockAlerts| + 1
            && |s'.outbox| <= |s.outbox| + 1
            && (|s'.outbox| > |s.outbox| ==> |s'.restockAlerts| > |s.restockAlerts|)
    ensures f.SucceedsThrough(EmailCall) ==>
              var s' := RestockStep(s, m, now, f);
              && (|s'.restockAlerts| == |s.restockAlerts| + 1 <==> NeedsRestock(s.inventory, m.product_id))
              && (|s'.outbox| == |s.outbox| + 1 <==> NeedsRestock(s.inventory, m.product_id))
  {
    var es := HandleRestock(s.inventory, m, now, f).effects;
    if es != [] {
      assert es[..0] == [];
      ApplyAllSnoc(s, es[..0], es[0]);
      assert es[..1] == es[..0] + [es[0]];
      if |es| == 2 {
        ApplyAllSnoc(s, es[..1], es[1]);
        assert es == es[..1] + [es[1]];
      } else {
        assert es == es[..1];
      }
    }
  }

  /** End to end: after a successful processing step on a consistent
      inventory, the restock check it published (the last entry of the
      restock topic, by ProcessedOrderState) raises an alert (with every
      call succeeding) exactly when the stock left is below the reorder
      level. */
  lemma OrderThenRestock(s: State, m: OrderMessage, env: Fresh, f: Faults, now: int)
    requires ProcessOrder(s.inventory, m, env, f).outcome == Completed
    ensures var s1 := ProcessStep(s, m, env, f);
            var p := GetProductById(s.inventory, m.product_id).value;
            var s2 := RestockStep(s1, RestockMessage(m.product_id), now, NoFault);
            |s2.restockAlerts| == |s1.restockAlerts| + 1 <==> p.stock_quantity - m.quantity_ordered < p.reorder_level
  {
    ProcessedOrderState(s, m, env, f);
    var s1 := ProcessStep(s, m, env, f);
    var check := RestockMessage(m.product_id);
    UpdateKeepsFirstRow(s.inventory, m.product_id, m.quantity_ordered, env.today);
    RestockStepEffects(s1, check, now, NoFault);
  }

  /** The processor checks the stock of the first row carrying the product
      id but decrements every row carrying it. On a table holding the id
      twice, a later row with less stock than ordered is driven below zero:
      the unique-id half of `StockInvariant` is an assumption about the
      table, not something the processor ensures. */
  lemma DuplicateRowGoesNegative(s: State, m: OrderMessage, env: Fresh, f: Faults, j: nat)
    requires ProcessOrder(s.inventory, m, env, f).outcome == Completed
    requires j < |s.inventory| && s.inventory[j].product_id == m.product_id
    ensures var inv := ProcessStep(s, m, env, f).inventory;
            && |inv| == |s.inventory|
            && inv[j].stock_quantity == s.inventory[j].stock_quantity - m.quantity_ordered
            && (s.inventory[j].stock_quantity < m.quantity_ordered ==> inv[j].stock_quantity < 0)
  {
    ProcessedOrderState(s, m, env, f);
  }

  /** A concrete table with the id twice: stock 5 in the first row, 0 in the
      second. An order of 3 passes the check on the first row, completes,
      and leaves the second row at -3. */
  lemma DuplicateRowExample(env: Fresh)
    ensures var p := Product("p1", "Widget", None, ActiveStatus, 5, None, 100, 2, 10, None);
            var s := State([p, p.(stock_quantity := 0)], [], [], [], [], [], []);
            var m := OrderMessage("o1", "c1", "p1", "Widget", 3, 100, 300, 0);
            && (forall i :: 0 <= i < |s.inventory| ==> s.inventory[i].stock_quantity >= 0)
            && ProcessOrder(s.inventory, m, env, NoFault).outcome == Completed
            && |ProcessStep(s, m, env, NoFault).inventory| == 2
            && ProcessStep(s, m, env, NoFault).inventory[1].stock_quantity == -3
            && !StockInvariant(ProcessStep(s, m, env, NoFault).inventory)
  {
    var p := Product("p1", "Widget", None, ActiveStatus, 5, None, 100, 2, 10, None);
    var s := State([p, p.(stock_quantity := 0)], [], [], [], [], [], []);
    var m := OrderMessage("o1", "c1", "p1", "Widget", 3, 100, 300, 0);
    assert GetProductById(s.inventory, "p1") == Some(p);
    DuplicateRowGoesNegative(s, m, env, NoFault, 1);
  }

  /** One delivery of an order message, with the fresh values and the
      failures of that run. */
  datatype Delivery = Delivery(message: OrderMessage, env: Fresh, faults: Faults)

  /** Delivers the order messages one after another. */
  function ProcessAll(s: State, ds: seq<Delivery>): State
    decreases |ds|
  {
    if |ds| == 0 then s else ProcessAll(ProcessStep(s, ds[0].message, ds[0].env, ds[0].faults), ds[1..])
  }

  /** No sequence of deliveries, with any failures, drives stock negative or
      duplicates a product row. */
  lemma {:induction false} ProcessAllPreservesStockInvariant(s: State, ds: seq<Delivery>)
    requires StockInvariant(s.inventory)
    ensures StockInvariant(ProcessAll(s, ds).inventory)
    decreases |ds|
  {
    if |ds| != 0 {
      ProcessPreservesStockInvariant(s, ds[0].message, ds[0].env, ds[0].faults);
      ProcessAllPreservesStockInvariant(ProcessStep(s, ds[0].message, ds[0].env, ds[0].faults), ds[1..]);
    }
  }

  /** Orders are only ever appended: every processing step keeps the order
      history as a prefix. */
  lemma {:induction false} ProcessAllAppendsOrders(s: State, ds: seq<Delivery>)
    ensures IsPrefix(s.orders, ProcessAll(s, ds).orders)
    ensures |ProcessAll(s, ds).orders| <= |s.orders| + |ds|
    decreases |ds|
  {
    if |ds| != 0 {
      var d := ds[0];
      var r := ProcessOrder(s.inventory, d.message, d.env, d.faults);
      var n := |r.effects|;
      assert r.effects == SuccessTrace(d.message, d.env)[..n];
      ProcessorTracePrefixes(s, d.message, d.env, n);
      var s1 := ProcessStep(s, d.message, d.env, d.faults);
      ProcessAllAppendsOrders(s1, ds[1..]);
      var fin := ProcessAll(s1, ds[1..]).orders;
      assert fin[..|s1.orders|] == s1.orders;
      assert fin[..|s.orders|] == fin[..|s1.orders|][..|s.orders|];
    }
  }
}

=== FILE: records.dfy ===
/** The entities of the SmartStock system: warehouse rows (the inventory
    baseline and order history tables), queue messages, customer documents,
    restock alert documents, outgoing e-mails and HTTP responses. Prices are
    whole cents, quantities whole units, clock readings whole milliseconds. */
module Records {
  import opened Base

  const ActiveStatus := "Active"
  const PendingStatus := "Pending"
  const UnreadStatus := "unread"

  /** One row of the inventory baseline table. */
  datatype Product = Product(
    product_id: string,
    product_name: string,
    category: Option<string>,
    status: string,
    stock_quantity: int,
    sales_volume: Option<int>,
    unit_price: int,
    reorder_level: int,
    reorder_quantity: int,
    last_order_date: Option<int>)

  /** The two columns the product drop-downs select. */
  datatype ProductSummary = ProductSummary(product_id: string, product_name: string)

  /** The four columns the restock handler selects for a product. */
  datatype ReorderDetails = ReorderDetails(
    product_name: string,
    stock_quantity: int,
    reorder_level: int,
    reorder_quantity: int)

  /** The payload published on the order topic, one per cart line. */
  datatype OrderMessage = OrderMessage(
    order_id: string,
    customer_id: string,
    product_id: string,
    product_name: string,
    quantity_ordered: int,
    unit_price: int,
    total_price: int,
    timestamp: int)

  /** One row of the order history table. */
  datatype OrderRow = OrderRow(
    order_id: string,
    customer_id: string,
    product_id: string,
    product_name: string,
    quantity_ordered: int,
    unit_price: int,
    total_price: int,
    timestamp: int,
    order_status: string)

  /** One row of the spend-per-customer aggregate. */
  datatype SpendRow = SpendRow(customer_id: string, total_spent: int)

  /** The payload published on the restock topic: only the product id. */
  datatype RestockMessage = RestockMessage(product_id: string)

  /** A field value of a Firestore document. */
  datatype Value = Str(s: string) | Num(n: int) | Time(t: int) | Undefined

  type Document = map<string, Value>

  /** A Firestore GeoPoint-like location; either coordinate may be missing. */
  datatype Location = Location(latitude: Option<real>, longitude: Option<real>)

  /** The eight customer fields the application reads. */
  datatype Customer = Customer(
    customer_id: Option<string>,
    name: Option<string>,
    email: Option<string>,
    phone: Option<string>,
    address: Option<string>,
    location: Option<Location>,
    registered_date: Option<int>,
    status: Option<string>)

  /** A document of the customers collection: its document id, the fields the
      application reads, and whatever other fields were imported with it. */
  datatype CustomerDoc = CustomerDoc(id: string, data: Customer, extra: map<string, Value>)

  /** The arguments of one restock alert e-mail. */
  datatype Email = RestockEmail(product_name: string, stock_quantity: int, reorder_quantity: int)

  /** A marker of the customer map. */
  datatype Marker =
    | CustomerMarker(customer_id: Option<string>, name: Option<string>, lat: real, lng: real)
    | HqMarker(title: string, lat: real, lng: real)

  /** One entry of the top-spenders answer. */
  datatype Spender = Spender(name: string, total_spent: int)

  /** The JSON body of an HTTP answer. */
  datatype Body =
    | Failure(error: string)
    | Submitted(status: string, message: string)
    | Created(customer: Customer)
    | Spenders(spenders: seq<Spender>)
    | Markers(markers: seq<Marker>)
    | ApiKey(apiKey: string)
    | Coordinates(latitude: real, longitude: real)

  datatype Response = Response(code: int, body: Body)
}

=== FILE: restock_handler.dfy ===
/** The restock handler background function
    (functions/restockHandler/index.js): for one restock check it compares
    the product's stock with its reorder level and, when the stock is below
    the level, records an alert and then e-mails it. Errors are logged and
    swallowed: the function always completes. */
module RestockHandler {
  import opened Base
  import opened Seqs
  import opened Records
  import opened Warehouse
  import opened Effects
  import CustomerStore

  /** The fields of the alert the handler builds. */
  const AlertFields: set<string> :=
    {"product_id", "product_name", "stock_quantity", "reorder_level", "reorder_quantity", "status"}

  /** The alert fields the handler hands to its alert writer. */
  function AlertPayload(pid: string, d: ReorderDetails): (r: Document)
    ensures r.Keys == AlertFields
  {
    map["product_id" := Str(pid),
        "product_name" := Str(d.product_name),
        "stock_quantity" := Num(d.stock_quantity),
        "reorder_level" := Num(d.reorder_level),
        "reorder_quantity" := Num(d.reorder_quantity),
        "status" := Str(UnreadStatus)]
  }

  /** The handler's own alert writer (`{...data, alert_date}`): every field
      it is given plus the write time. */
  function AlertRecord(data: Document, now: int): (r: Document)
    ensures r.Keys == data.Keys + {"alert_date"}
    ensures forall k :: k in data && k != "alert_date" ==> r[k] == data[k]
    ensures r["alert_date"] == Time(now)
  {
    data["alert_date" := Time(now)]
  }

  /** The effects of a below-threshold check, in order: the alert, then the
      e-mail. */
  function AlertTrace(pid: string, d: ReorderDetails, now: int): (r: seq<Effect>)
    ensures |r| == 2
    ensures r[0].WriteAlert? && r[1].SendEmail?
    ensures r[0].alert.Keys == AlertFields + {"alert_date"}
    ensures var a := r[0].alert;
            && a["product_id"] == Str(pid)
            && a["product_name"] == Str(d.product_name)
            && a["stock_quantity"] == Num(d.stock_quantity)
            && a["reorder_level"] == Num(d.reorder_level)
            && a["reorder_quantity"] == Num(d.reorder_quantity)
            && a["status"] == Str(UnreadStatus)
            && a["alert_date"] == Time(now)
    ensures r[1].email == RestockEmail(d.product_name, d.stock_quantity, d.reorder_quantity)
  {
    [WriteAlert(AlertRecord(AlertPayload(pid, d), now)),
     SendEmail(RestockEmail(d.product_name, d.stock_quantity, d.reorder_quantity))]
  }

  /** Outbound calls, numbered as `Faults` counts them. */
  const DetailsCall := 0
  const AlertCall := 1
  const EmailCall := 2

  /** The product is known and its stock is below its reorder level. */
  predicate NeedsRestock(inventory: seq<Product>, pid: string) {
    var d := GetReorderDetails(inventory, pid);
    d.Some? && d.value.stock_quantity < d.value.reorder_level
  }

  /** `restockHandler(message)` against the inventory rows `inventory`;
      `now` is the alert time. */
  function HandleRestock(inventory: seq<Product>, m: RestockMessage, now: int, f: Faults): (r: Run)
    ensures r.outcome == Completed
    ensures !NeedsRestock(inventory, m.product_id) ==> r.effects == []
    ensures NeedsRestock(inventory, m.product_id) ==>
              IsPrefix(r.effects, AlertTrace(m.product_id, GetReorderDetails(inventory, m.product_id).value, now))
    ensures f.FailCall? && f.index <= AlertCall ==> r.effects == []
    ensures f.Fails(EmailCall) && NeedsRestock(inventory, m.product_id) ==>
              r.effects == AlertTrace(m.product_id, GetReorderDetails(inventory, m.product_id).value, now)[..1]
    ensures f.SucceedsThrough(EmailCall) && NeedsRestock(inventory, m.product_id) ==>
              r.effects == AlertTrace(m.product_id, GetReorderDetails(inventory, m.product_id).value, now)
  {
    if f.Fails(DetailsCall) then Run([], Completed)
    else match GetReorderDetails(inventory, m.product_id)
      case None => Run([], Completed)
      case Some(d) =>
        if d.stock_quantity >= d.reorder_level then Run([], Completed)
        else
          var trace := AlertTrace(m.product_id, d, now);
          if f.Fails(AlertCall) then Run([], Completed)
          else if f.Fails(EmailCall) then Run(trace[..1], Completed)
          else Run(trace, Completed)
  }

  /** An e-mail is only ever sent right after its alert was recorded. */
  lemma EmailFollowsAlert(inventory: seq<Product>, m: RestockMessage, now: int, f: Faults)
    ensures var es := HandleRestock(inventory, m, now, f).effects;
            forall k :: 0 <= k < |es| && es[k].SendEmail? ==>
              k == 1 && es[0].WriteAlert? && es[0].alert["product_name"] == Str(es[k].email.product_name)
  {
  }

  /** The restock log writer of the application service reads the stock
      level from a `current_quantity` field, which the handler's alert does
      not carry: an alert routed through that writer would carry no
      `current_quantity`. */
  lemma HandlerAlertLosesStockLevel(pid: string, d: ReorderDetails, now: int)
    ensures var entry := CustomerStore.RestockLogEntry(AlertPayload(pid, d), now);
            && entry["current_quantity"] == Undefined
            && entry["product_id"] == Str(pid)
            && entry["reorder_level"] == Num(d.reorder_level)
            && entry["status"] == Str(UnreadStatus)
  {
  }

  /** With every call succeeding, an alert is recorded exactly when the stock
      is below the reorder level (equality does not alert), and it is the
      only one. */
  lemma AlertExactlyWhenBelowLevel(inventory: seq<Product>, m: RestockMessage, now: int, f: Faults)
    ensures f.SucceedsThrough(EmailCall) ==>
            var es := HandleRestock(inventory, m, now, f).effects;
            var alerts := set k | 0 <= k < |es| && es[k].WriteAlert?;
            (|alerts| == 1 <==> NeedsRestock(inventory, m.product_id))
            && (alerts == {} <==> !NeedsRestock(inventory, m.product_id))
  {
    var es := HandleRestock(inventory, m, now, f).effects;
    var alerts := set k | 0 <= k < |es| && es[k].WriteAlert?;
    if f.SucceedsThrough(EmailCall) {
      if NeedsRestock(inventory, m.product_id) {
        assert alerts == {0};
      } else {
        assert alerts == {};
      }
    }
  }
}

=== FILE: seqs.dfy ===
/** Sequence operations that stand in for the SQL and Firestore query
    clauses: WHERE (Filter), ORDER BY (SortBy, a stable insertion sort under a
    total preorder) and LIMIT (Take). */
module Seqs {
  import opened Base

  /** The elements of `s` that satisfy `p`, in their original order. */
  function Filter<T(!new)>(s: seq<T>, p: T -> bool): (r: seq<T>)
    ensures |r| <= |s|
    ensures forall x :: x in r <==> x in s && p(x)
  {
    if |s| == 0 then []
    else
      assert s == [s[0]] + s[1..];
      (if p(s[0]) then [s[0]] else []) + Filter(s[1..], p)
  }

  /** Filtering keeps every kept element at its multiplicity. */
  lemma {:induction false} FilterMultiset<T(!new)>(s: seq<T>, p: T -> bool)
    ensures forall x :: multiset(Filter(s, p))[x] == if p(x) then multiset(s)[x] else 0
    decreases |s|
  {
    if |s| != 0 {
      FilterMultiset(s[1..], p);
      assert s == [s[0]] + s[1..];
    }
  }

  lemma ConcatAssoc<T>(x: seq<T>, y: seq<T>, z: seq<T>)
    ensures x + (y + z) == (x + y) + z
  {
  }

  lemma FilterUnfold<T(!new)>(s: seq<T>, p: T -> bool)
    requires |s| > 0
    ensures Filter(s, p) == (if p(s[0]) then [s[0]] else []) + Filter(s[1..], p)
  {
  }

  /** The inductive step of `FilterAppend`. */
  lemma FilterConsAppend<T(!new)>(h: T, a: seq<T>, b: seq<T>, p: T -> bool)
    requires Filter(a + b, p) == Filter(a, p) + Filter(b, p)
    ensures Filter([h] + a + b, p) == Filter([h] + a, p) + Filter(b, p)
  {
    var head := if p(h) then [h] else [];
    assert ([h] + a + b)[1..] == a + b;
    assert ([h] + a)[1..] == a;
    FilterUnfold([h] + a + b, p);
    FilterUnfold([h] + a, p);
    ConcatAssoc(head, Filter(a, p), Filter(b, p));
  }

  /** Filtering distributes over concatenation: the kept elements keep
      their relative order. */
  lemma {:induction false} FilterAppend<T(!new)>(a: seq<T>, b: seq<T>, p: T -> bool)
    ensures Filter(a + b, p) == Filter(a, p) + Filter(b, p)
    decreases |a|
  {
    if |a| == 0 {
      assert a + b == b;
    } else {
      FilterAppend(a[1..], b, p);
      FilterConsAppend(a[0], a[1..], b, p);
      assert a == [a[0]] + a[1..];
    }
  }

  /** Applies `f` to every element, keeping order and length. */
  function Map<A, B>(s: seq<A>, f: A -> B): (r: seq<B>)
    ensures |r| == |s|
    ensures forall i :: 0 <= i < |s| ==> r[i] == f(s[i])
  {
    if |s| == 0 then [] else [f(s[0])] + Map(s[1..], f)
  }

  lemma MapAppend<A, B>(a: seq<A>, b: seq<A>, f: A -> B)
    ensures Map(a + b, f) == Map(a, f) + Map(b, f)
  {
    assert forall i :: 0 <= i < |a + b| ==> Map(a + b, f)[i] == (Map(a, f) + Map(b, f))[i];
  }

  /** At most the first `k` elements, as SQL's LIMIT. */
  function Take<T>(s: seq<T>, k: nat): (r: seq<T>)
    ensures |r| == Min(k, |s|)
    ensures forall i :: 0 <= i < |r| ==> r[i] == s[i]
  {
    if k <= |s| then s[..k] else s
  }

  /** `a` is an initial segment of `b`. */
  predicate IsPrefix<T(==)>(a: seq<T>, b: seq<T>) {
    |a| <= |b| && b[..|a|] == a
  }

  ghost predicate TotalPreorder<T(!new)>(le: (T, T) -> bool) {
    && (forall a, b :: le(a, b) || le(b, a))
    && (forall a, b, c :: le(a, b) && le(b, c) ==> le(a, c))
  }

  predicate SortedBy<T>(s: seq<T>, le: (T, T) -> bool) {
    forall i, j :: 0 <= i < j < |s| ==> le(s[i], s[j])
  }

  /** No element occurs twice. */
  predicate Distinct<T(==)>(s: seq<T>) {
    forall i, j :: 0 <= i < j < |s| ==> s[i] != s[j]
  }

  /** Inserts `x` before the first element it does not follow. */
  function InsertBy<T(!new)>(x: T, s: seq<T>, le: (T, T) -> bool): (r: seq<T>)
    requires TotalPreorder(le)
    requires SortedBy(s, le)
    ensures multiset(r) == multiset(s) + multiset{x}
    ensures SortedBy(r, le)
  {
    if |s| == 0 then [x]
    else if le(x, s[0]) then
      assert forall j :: 0 <= j < |s| ==> le(x, s[j]) by {
        forall j | 0 <= j < |s| ensures le(x, s[j]) {
          if j > 0 { assert le(s[0], s[j]); }
        }
      }
      [x] + s
    else
      var t := InsertBy(x, s[1..], le);
      assert s == [s[0]] + s[1..];
      assert forall j :: 0 <= j < |t| ==> le(s[0], t[j]) by {
        forall j | 0 <= j < |t| ensures le(s[0], t[j]) {
          assert t[j] in multiset(t);
          if t[j] != x {
            assert t[j] in multiset(s[1..]);
            var k :| 0 <= k < |s[1..]| && s[1..][k] == t[j];
            assert s[k + 1] == t[j];
          }
        }
      }
      [s[0]] + t
  }

  /** Orders `s` by `le`: a permutation of `s` that is sorted. */
  function SortBy<T(!new)>(s: seq<T>, le: (T, T) -> bool): (r: seq<T>)
    requires TotalPreorder(le)
    ensures multiset(r) == multiset(s)
    ensures |r| == |s|
    ensures SortedBy(r, le)
  {
    if |s| == 0 then []
    else
      assert s == [s[0]] + s[1..];
      var r := InsertBy(s[0], SortBy(s[1..], le), le);
      assert |r| == |multiset(r)| == |multiset(s)| == |s|;
      r
  }

  /** Inserting a new element into a repetition-free sequence keeps it free of
      repetitions. */
  lemma {:induction false} InsertByDistinct<T(!new)>(x: T, s: seq<T>, le: (T, T) -> bool)
    requires TotalPreorder(le)
    requires SortedBy(s, le)
    requires Distinct(s) && x !in s
    ensures Distinct(InsertBy(x, s, le))
  {
    if |s| != 0 && !le(x, s[0]) {
      InsertByDistinct(x, s[1..], le);
      var t := InsertBy(x, s[1..], le);
      assert s == [s[0]] + s[1..];
      assert s[0] !in t by {
        assert s[0] !in multiset(s[1..]);
        assert s[0] != x;
        assert s[0] !in multiset(t);
      }
    }
  }

  /** Sorting a repetition-free sequence yields a repetition-free sequence. */
  lemma {:induction false} SortByDistinct<T(!new)>(s: seq<T>, le: (T, T) -> bool)
    requires TotalPreorder(le)
    requires Distinct(s)
    ensures Distinct(SortBy(s, le))
  {
    if |s| != 0 {
      SortByDistinct(s[1..], le);
      var t := SortBy(s[1..], le);
      assert s[0] !in t by {
        assert s == [s[0]] + s[1..];
        assert s[0] !in multiset(s[1..]);
      }
      InsertByDistinct(s[0], t, le);
    }
  }

  /** An element of a permutation sits at some index of it. */
  lemma InMultisetIndex<T>(x: T, s: seq<T>) returns (i: nat)
    requires x in multiset(s)
    ensures i < |s| && s[i] == x
  {
    assert x in s;
    i :| 0 <= i < |s| && s[i] == x;
  }

  /** `Map(Filter(s, p), f)` holds the image of every kept element and
      nothing else. */
  lemma {:induction false} SelectionMembers<A(!new), B>(s: seq<A>, p: A -> bool, f: A -> B)
    ensures forall i :: 0 <= i < |s| && p(s[i]) ==> f(s[i]) in Map(Filter(s, p), f)
    ensures forall y :: y in Map(Filter(s, p), f) ==> exists i :: 0 <= i < |s| && p(s[i]) && f(s[i]) == y
  {
    if |s| != 0 {
      SelectionMembers(s[1..], p, f);
      assert s == [s[0]] + s[1..];
      var rest := Filter(s[1..], p);
      assert Filter(s, p) == (if p(s[0]) then [s[0]] else []) + rest;
      if p(s[0]) {
        assert Map(Filter(s, p), f) == [f(s[0])] + Map(rest, f);
      }
      forall y | y in Map(Filter(s, p), f) ensures exists i :: 0 <= i < |s| && p(s[i]) && f(s[i]) == y {
        if y in Map(rest, f) {
          var i :| 0 <= i < |s[1..]| && p(s[1..][i]) && f(s[1..][i]) == y;
          assert s[i + 1] == s[1..][i];
        }
      }
      forall i | 0 <= i < |s| && p(s[i]) ensures f(s[i]) in Map(Filter(s, p), f) {
        if i > 0 {
          assert s[1..][i - 1] == s[i];
        }
      }
    }
  }
}

=== FILE: warehouse.dfy ===
/** The analytical warehouse (appengine/services/bigquery.js): the inventory
    baseline table and the order history table, each a sequence of rows, and
    every query and statement the application issues against them as a pure
    function of the rows. */
module Warehouse {
  import opened Base
  import opened Seqs
  import opened Records

  const OrderIdPrefix := "ORD-"

  /** The number of entries `getTopCustomersBySpend` returns when no limit is given. */
  const DefaultTopLimit: nat := 5

  predicate IsActive(p: Product) {
    p.status == ActiveStatus
  }

  /** No two inventory rows share a product id. */
  predicate UniqueIds(rows: seq<Product>) {
    forall i, j :: 0 <= i < j < |rows| ==> rows[i].product_id != rows[j].product_id
  }

  // ---------------------------------------------------------------------
  // Lookups
  // ---------------------------------------------------------------------

  /** Index of the first row carrying `pid`. */
  function FirstIndex(rows: seq<Product>, pid: string): (r: Option<nat>)
    ensures r.Some? ==> r.value < |rows| && rows[r.value].product_id == pid
    ensures r.Some? ==> forall j :: 0 <= j < r.value ==> rows[j].product_id != pid
    ensures r.None? ==> forall j :: 0 <= j < |rows| ==> rows[j].product_id != pid
  {
    if |rows| == 0 then None
    else if rows[0].product_id == pid then Some(0)
    else match FirstIndex(rows[1..], pid)
      case None => None
      case Some(k) => Some(k + 1)
  }

  /** `getProductById`: the full row of the product, or nothing. */
  function GetProductById(rows: seq<Product>, pid: string): (r: Option<Product>)
    ensures r.None? <==> forall j :: 0 <= j < |rows| ==> rows[j].product_id != pid
    ensures r.Some? ==> r.value.product_id == pid
    ensures r.Some? ==> exists i :: 0 <= i < |rows| && rows[i] == r.value
                                  && forall j :: 0 <= j < i ==> rows[j].product_id != pid
    ensures UniqueIds(rows) ==> forall i :: 0 <= i < |rows| && rows[i].product_id == pid ==> r == Some(rows[i])
  {
    match FirstIndex(rows, pid)
    case None => None
    case Some(i) => Some(rows[i])
  }

  /** `getReorderDetails` (restock handler): the name, stock and reorder
      columns of the product's row, or nothing. */
  function GetReorderDetails(rows: seq<Product>, pid: string): (r: Option<ReorderDetails>)
    ensures r.None? <==> forall j :: 0 <= j < |rows| ==> rows[j].product_id != pid
    ensures r.Some? ==> exists i :: 0 <= i < |rows| && rows[i].product_id == pid
                                  && r.value.product_name == rows[i].product_name
                                  && r.value.stock_quantity == rows[i].stock_quantity
                                  && r.value.reorder_level == rows[i].reorder_level
                                  && r.value.reorder_quantity == rows[i].reorder_quantity
  {
    match GetProductById(rows, pid)
    case None => None
    case Some(p) => Some(ReorderDetails(p.product_name, p.stock_quantity, p.reorder_level, p.reorder_quantity))
  }

  // ---------------------------------------------------------------------
  // updateInventory
  // ---------------------------------------------------------------------

  /** `IFNULL(sales_volume, 0)` */
  function SalesOrZero(p: Product): int {
    match p.sales_volume
    case None => 0
    case Some(v) => v
  }

  /** The columns the inventory update leaves alone are equal. */
  predicate SameListing(a: Product, b: Product) {
    && a.product_id == b.product_id
    && a.product_name == b.product_name
    && a.category == b.category
    && a.status == b.status
    && a.unit_price == b.unit_price
    && a.reorder_level == b.reorder_level
    && a.reorder_quantity == b.reorder_quantity
  }

  function Decremented(p: Product, q: int, today: int): Product {
    p.(stock_quantity := p.stock_quantity - q,
       sales_volume := Some(SalesOrZero(p) + q),
       last_order_date := Some(today))
  }

  /** `updateInventory(product_id, q)`: every row of the product loses `q`
      units of stock and gains `q` units of sales; `today` is CURRENT_DATE(). */
  function UpdateInventory(rows: seq<Product>, pid: string, q: int, today: int): (r: seq<Product>)
    ensures |r| == |rows|
    ensures forall i :: 0 <= i < |rows| ==> SameListing(r[i], rows[i])
    ensures forall i :: 0 <= i < |rows| && rows[i].product_id != pid ==> r[i] == rows[i]
    ensures forall i :: 0 <= i < |rows| && rows[i].product_id == pid ==>
              && r[i].stock_quantity == rows[i].stock_quantity - q
              && r[i].sales_volume == Some(SalesOrZero(rows[i]) + q)
              && r[i].last_order_date == Some(today)
    ensures forall i :: 0 <= i < |rows| ==>
              r[i].stock_quantity + SalesOrZero(r[i]) == rows[i].stock_quantity + SalesOrZero(rows[i])
    ensures UniqueIds(rows) ==> UniqueIds(r)
  {
    Map(rows, (p: Product) => if p.product_id == pid then Decremented(p, q, today) else p)
  }

  /** After the update, the first row of the product is the old first row,
      decremented: the row ids do not move. */
  lemma UpdateKeepsFirstRow(rows: seq<Product>, pid: string, q: int, today: int)
    requires GetProductById(rows, pid).Some?
    ensures GetProductById(UpdateInventory(rows, pid, q, today), pid)
            == Some(Decremented(GetProductById(rows, pid).value, q, today))
  {
    var r := UpdateInventory(rows, pid, q, today);
    var i := FirstIndex(rows, pid).value;
    assert r[i].product_id == pid;
    var k := FirstIndex(r, pid).value;
    assert k == i;
    assert r[i] == Decremented(rows[i], q, today);
  }

  // ---------------------------------------------------------------------
  // logOrder
  // ---------------------------------------------------------------------

  /** The order history row `logOrder` builds from a payload: a fresh
      "ORD-" id from `uuid`, the insert time `now`, status Pending. */
  function OrderRowFor(m: OrderMessage, uuid: string, now: int): OrderRow {
    OrderRow(OrderIdPrefix + uuid, m.customer_id, m.product_id, m.product_name,
             m.quantity_ordered, m.unit_price, m.total_price, now, PendingStatus)
  }

  /** `logOrder(order)`: appends one row to the order history. */
  function LogOrder(orders: seq<OrderRow>, m: OrderMessage, uuid: string, now: int): (r: seq<OrderRow>)
    ensures |r| == |orders| + 1
    ensures r[..|orders|] == orders
    ensures StartsWith(r[|orders|].order_id, OrderIdPrefix)
    ensures r[|orders|].order_status == PendingStatus
    ensures r[|orders|].timestamp == now
    ensures && r[|orders|].customer_id == m.customer_id
            && r[|orders|].product_id == m.product_id
            && r[|orders|].product_name == m.product_name
            && r[|orders|].quantity_ordered == m.quantity_ordered
            && r[|orders|].unit_price == m.unit_price
            && r[|orders|].total_price == m.total_price
  {
    orders + [OrderRowFor(m, uuid, now)]
  }

  /** The payload's own order id and timestamp are not stored: two payloads
      that differ only in those fields log the same row. */
  lemma LogOrderIgnoresPayloadIdAndTime(orders: seq<OrderRow>, m: OrderMessage, otherId: string, otherTime: int, uuid: string, now: int)
    ensures LogOrder(orders, m, uuid, now) == LogOrder(orders, m.(order_id := otherId, timestamp := otherTime), uuid, now)
  {
  }

  // ---------------------------------------------------------------------
  // Product listings
  // ---------------------------------------------------------------------

  function Summary(p: Product): ProductSummary {
    ProductSummary(p.product_id, p.product_name)
  }

  /** `ORDER BY product_name` */
  predicate ByName(a: ProductSummary, b: ProductSummary) {
    LexLe(a.product_name, b.product_name)
  }

  lemma ByNameIsTotalPreorder()
    ensures TotalPreorder(ByName)
  {
    forall a: ProductSummary, b: ProductSummary ensures ByName(a, b) || ByName(b, a) {
      LexLeTotal(a.product_name, b.product_name);
    }
    forall a: ProductSummary, b: ProductSummary, c: ProductSummary | ByName(a, b) && ByName(b, c)
      ensures ByName(a, c)
    {
      LexLeTransitive(a.product_name, b.product_name, c.product_name);
    }
  }

  /** `SELECT product_id, product_name ... WHERE keep ORDER BY product_name`. */
  function SelectByName(rows: seq<Product>, keep: Product -> bool): (r: seq<ProductSummary>)
    ensures SortedBy(r, ByName)
    ensures multiset(r) == multiset(Map(Filter(rows, keep), Summary))
    ensures forall i :: 0 <= i < |rows| && keep(rows[i]) ==> Summary(rows[i]) in r
    ensures forall x :: x in r ==> exists i :: 0 <= i < |rows| && keep(rows[i]) && Summary(rows[i]) == x
  {
    ByNameIsTotalPreorder();
    var images := Map(Filter(rows, keep), Summary);
    var r := SortBy(images, ByName);
    SelectionMembers(rows, keep, Summary);
    assert forall x :: x in r <==> x in images by {
      forall x ensures x in r <==> x in images {
        assert x in r <==> x in multiset(r);
        assert x in images <==> x in multiset(images);
      }
    }
    r
  }

  /** `getInventory`: the active products, by name. */
  function GetInventory(rows: seq<Product>): (r: seq<ProductSummary>)
    ensures SortedBy(r, ByName)
    ensures multiset(r) == multiset(Map(Filter(rows, IsActive), Summary))
    ensures forall i :: 0 <= i < |rows| && IsActive(rows[i]) ==> Summary(rows[i]) in r
    ensures forall x :: x in r ==> exists i :: 0 <= i < |rows| && IsActive(rows[i]) && Summary(rows[i]) == x
  {
    SelectByName(rows, IsActive)
  }

  predicate InCategory(p: Product, c: string) {
    IsActive(p) && p.category == Some(c)
  }

  /** `getProductsByCategory(c)`: the active products of category `c`, by name. */
  function GetProductsByCategory(rows: seq<Product>, c: string): (r: seq<ProductSummary>)
    ensures SortedBy(r, ByName)
    ensures multiset(r) == multiset(Map(Filter(rows, (p: Product) => InCategory(p, c)), Summary))
    ensures forall i :: 0 <= i < |rows| && InCategory(rows[i], c) ==> Summary(rows[i]) in r
    ensures forall x :: x in r ==> exists i :: 0 <= i < |rows| && InCategory(rows[i], c) && Summary(rows[i]) == x
  {
    SelectByName(rows, (p: Product) => InCategory(p, c))
  }

  // ---------------------------------------------------------------------
  // getProductCategories
  // ---------------------------------------------------------------------

  /** Strictly ascending: sorted and free of repetitions. */
  predicate StrictlySorted(s: seq<string>) {
    forall i, j :: 0 <= i < j < |s| ==> LexLt(s[i], s[j])
  }

  /** Adds `c` to a strictly ascending list unless it is already there. */
  function InsertDistinct(c: string, s: seq<string>): (r: seq<string>)
    requires StrictlySorted(s)
    ensures StrictlySorted(r)
    ensures forall x :: x in r <==> x == c || x in s
  {
    if |s| == 0 then [c]
    else if c == s[0] then s
    else if LexLe(c, s[0]) then
      assert forall j :: 0 < j < |s| ==> LexLt(c, s[j]) by {
        forall j | 0 < j < |s| ensures LexLt(c, s[j]) {
          LexLtTransitive(c, s[0], s[j]);
        }
      }
      [c] + s
    else
      var t := InsertDistinct(c, s[1..]);
      LexLtConnected(c, s[0]);
      assert forall j :: 0 <= j < |t| ==> LexLt(s[0], t[j]) by {
        forall j | 0 <= j < |t| ensures LexLt(s[0], t[j]) {
          if t[j] != c {
            assert t[j] in s[1..];
            var k :| 0 <= k < |s[1..]| && s[1..][k] == t[j];
            assert s[k + 1] == t[j];
          }
        }
      }
      assert s == [s[0]] + s[1..];
      [s[0]] + t
  }

  /** `getProductCategories`: the distinct non-null categories of active
      products, ascending. */
  function GetProductCategories(rows: seq<Product>): (r: seq<string>)
    ensures StrictlySorted(r)
    ensures forall c :: c in r <==> exists i :: 0 <= i < |rows| && InCategory(rows[i], c)
  {
    if |rows| == 0 then []
    else
      var rest := GetProductCategories(rows[1..]);
      var r := if IsActive(rows[0]) && rows[0].category.Some?
               then InsertDistinct(rows[0].category.value, rest)
               else rest;
      assert forall c :: c in r <==> exists i :: 0 <= i < |rows| && InCategory(rows[i], c) by {
        forall c ensures c in r <==> exists i :: 0 <= i < |rows| && InCategory(rows[i], c) {
          if c in r && !InCategory(rows[0], c) {
            var i :| 0 <= i < |rows[1..]| && InCategory(rows[1..][i], c);
            assert InCategory(rows[i + 1], c);
          }
          if exists i :: 0 <= i < |rows| && InCategory(rows[i], c) {
            var i :| 0 <= i < |rows| && InCategory(rows[i], c);
            if i > 0 {
              assert InCategory(rows[1..][i - 1], c);
            }
          }
        }
      }
      r
  }

  // ---------------------------------------------------------------------
  // getOrdersByCustomer
  // ---------------------------------------------------------------------

  /** `ORDER BY timestamp DESC` */
  predicate NewestFirst(a: OrderRow, b: OrderRow) {
    a.timestamp >= b.timestamp
  }

  /** `getOrdersByCustomer(c)`: every order of the customer, newest first. */
  function GetOrdersByCustomer(orders: seq<OrderRow>, cid: string): (r: seq<OrderRow>)
    ensures SortedBy(r, NewestFirst)
    ensures forall o :: multiset(r)[o] == if o.customer_id == cid then multiset(orders)[o] else 0
  {
    var keep := (o: OrderRow) => o.customer_id == cid;
    FilterMultiset(orders, keep);
    SortBy(Filter(orders, keep), NewestFirst)
  }

  /** A freshly logged order shows up among its customer's orders. */
  lemma LoggedOrderIsListed(orders: seq<OrderRow>, m: OrderMessage, uuid: string, now: int)
    ensures var after := LogOrder(orders, m, uuid, now);
            after[|orders|] in GetOrdersByCustomer(after, m.customer_id)
  {
    var after := LogOrder(orders, m, uuid, now);
    assert after[|orders|] in multiset(after);
    assert after[|orders|] in multiset(GetOrdersByCustomer(after, m.customer_id));
  }

  // ---------------------------------------------------------------------
  // getTopCustomersBySpend
  // ---------------------------------------------------------------------

  /** `SUM(total_price)` over the customer's orders. */
  function Spend(orders: seq<OrderRow>, cid: string): int {
    if |orders| == 0 then 0
    else (if orders[0].customer_id == cid then orders[0].total_price else 0) + Spend(orders[1..], cid)
  }

  /** Logging an order raises its customer's spend by its total and nobody
      else's. */
  lemma {:induction false} SpendAfterLog(orders: seq<OrderRow>, m: OrderMessage, uuid: string, now: int, cid: string)
    ensures Spend(LogOrder(orders, m, uuid, now), cid)
            == Spend(orders, cid) + (if m.customer_id == cid then m.total_price else 0)
  {
    SpendAppend(orders, OrderRowFor(m, uuid, now), cid);
  }

  lemma {:induction false} SpendAppend(orders: seq<OrderRow>, row: OrderRow, cid: string)
    ensures Spend(orders + [row], cid) == Spend(orders, cid) + (if row.customer_id == cid then row.total_price else 0)
  {
    if |orders| != 0 {
      assert (orders + [row])[1..] == orders[1..] + [row];
      SpendAppend(orders[1..], row, cid);
    }
  }

  /** The customers with at least one order, each once, by first order. */
  function CustomerIds(orders: seq<OrderRow>): (r: seq<string>)
    ensures Distinct(r)
    ensures forall c :: c in r <==> exists i :: 0 <= i < |orders| && orders[i].customer_id == c
  {
    if |orders| == 0 then []
    else
      var init := orders[..|orders| - 1];
      var rest := CustomerIds(init);
      var c := orders[|orders| - 1].customer_id;
      var r := if c in rest then rest else rest + [c];
      assert forall x :: x in r <==> exists i :: 0 <= i < |orders| && orders[i].customer_id == x by {
        forall x ensures x in r <==> exists i :: 0 <= i < |orders| && orders[i].customer_id == x {
          if x in rest {
            var i :| 0 <= i < |init| && init[i].customer_id == x;
            assert orders[i].customer_id == x;
          }
          if exists i :: 0 <= i < |orders| && orders[i].customer_id == x {
            var i :| 0 <= i < |orders| && orders[i].customer_id == x;
            if i < |init| {
              assert init[i].customer_id == x;
            }
          }
        }
      }
      r
  }

  /** `GROUP BY customer_id`: one spend row per customer. */
  function SpendRows(orders: seq<OrderRow>): (r: seq<SpendRow>)
    ensures |r| == |CustomerIds(orders)|
    ensures Distinct(r)
    ensures forall x :: x in r ==> x.customer_id in CustomerIds(orders) && x.total_spent == Spend(orders, x.customer_id)
    ensures forall c :: c in CustomerIds(orders) ==> SpendRow(c, Spend(orders, c)) in r
  {
    var ids := CustomerIds(orders);
    var r := Map(ids, (c: string) => SpendRow(c, Spend(orders, c)));
    assert forall c :: c in ids ==> SpendRow(c, Spend(orders, c)) in r by {
      forall c | c in ids ensures SpendRow(c, Spend(orders, c)) in r {
        var k :| 0 <= k < |ids| && ids[k] == c;
        assert r[k] == SpendRow(c, Spend(orders, c));
      }
    }
    r
  }

  /** `ORDER BY total_spent DESC` */
  predicate BiggerSpender(a: SpendRow, b: SpendRow) {
    a.total_spent >= b.total_spent
  }

  /** `cid` has an entry in `r`. */
  predicate Listed(r: seq<SpendRow>, cid: string) {
    exists j :: 0 <= j < |r| && r[j].customer_id == cid
  }

  /** `getTopCustomersBySpend(limit)`: the `limit` biggest spenders with
      their summed order totals, biggest first. */
  function GetTopCustomersBySpend(orders: seq<OrderRow>, limit: nat): (r: seq<SpendRow>)
    ensures |r| == Min(limit, |CustomerIds(orders)|)
    ensures SortedBy(r, BiggerSpender)
    ensures forall i :: 0 <= i < |r| ==>
              r[i].customer_id in CustomerIds(orders) && r[i].total_spent == Spend(orders, r[i].customer_id)
    ensures forall i, j :: 0 <= i < j < |r| ==> r[i].customer_id != r[j].customer_id
    ensures forall c, i :: c in CustomerIds(orders) && !Listed(r, c) && 0 <= i < |r| ==> Spend(orders, c) <= r[i].total_spent
  {
    var rows := SpendRows(orders);
    var sorted := SortBy(rows, BiggerSpender);
    SortByDistinct(rows, BiggerSpender);
    SortedSpendRows(orders, sorted);
    var r := Take(sorted, limit);
    OmittedSpendersSpendLess(orders, sorted, r);
    r
  }

  /** Every row of a permutation of the spend rows is a real customer's spend,
      and no customer appears twice. */
  lemma SortedSpendRows(orders: seq<OrderRow>, sorted: seq<SpendRow>)
    requires multiset(sorted) == multiset(SpendRows(orders))
    requires Distinct(sorted)
    ensures forall i :: 0 <= i < |sorted| ==>
              sorted[i].customer_id in CustomerIds(orders) && sorted[i].total_spent == Spend(orders, sorted[i].customer_id)
    ensures forall i, j :: 0 <= i < j < |sorted| ==> sorted[i].customer_id != sorted[j].customer_id
  {
    forall i | 0 <= i < |sorted|
      ensures sorted[i].customer_id in CustomerIds(orders) && sorted[i].total_spent == Spend(orders, sorted[i].customer_id)
    {
      assert sorted[i] in multiset(SpendRows(orders));
    }
  }

  /** Cutting a spend-sorted permutation of the spend rows after `|r|` rows
      leaves out nobody who spent more than someone kept. */
  lemma OmittedSpendersSpendLess(orders: seq<OrderRow>, sorted: seq<SpendRow>, r: seq<SpendRow>)
    requires multiset(sorted) == multiset(SpendRows(orders))
    requires SortedBy(sorted, BiggerSpender)
    requires |r| <= |sorted| && forall i :: 0 <= i < |r| ==> r[i] == sorted[i]
    ensures forall c, i :: c in CustomerIds(orders) && !Listed(r, c) && 0 <= i < |r| ==> Spend(orders, c) <= r[i].total_spent
  {
    forall c, i | c in CustomerIds(orders) && !Listed(r, c) && 0 <= i < |r| ensures Spend(orders, c) <= r[i].total_spent {
      var row := SpendRow(c, Spend(orders, c));
      assert row in multiset(sorted);
      var j := InMultisetIndex(row, sorted);
      assert sorted[j].customer_id == c;
      assert j >= |r|;
    }
  }
}
